=== FILE: README.md ===
# yatube: relationship store and ownership rules

This project models the core of the yatube blogging API in Dafny. Users write
posts, optionally in a group and with an image. They comment on posts and
follow other users. The model covers three parts:

- the relationship store: the `Group`, `Post`, `Comment` and `Follow` tables,
  their database constraints, the cascades of every delete, and the default
  order of every table (`Models`);
- the ownership rule `IsAuthorOrReadOnly` (`Permissions`);
- the resource services of both revisions in the repository. The routed API
  is `yatube_api/api` (`ApiSerializers`, `ApiViews`). The unrouted `posts`
  revision is `yatube_api/posts/views.py` and `serializers.py`
  (`PostsSerializers`, `PostsViews`).

The store is an immutable value. Every write returns `Result<_, Error>`. A
refused write carries no store, so a refusal leaves the caller's store as it
was. Every service requires `Models.Valid`, the database constraints, and
every successful write ensures `Valid` of the new store. Each service runs the
framework's steps in its order:

1. authentication (401);
2. loading the addressed row (404);
3. the object permission (403);
4. body validation (400);
5. the view's own `perform_*` checks;
6. the write.

The properties proved include:

- validation refuses every write the database constraints would refuse, so no
  write service ever returns an `IntegrityError`;
- the two revisions accept the same follows, although they check in a
  different order;
- the API post views' own author checks can never fire, because the object
  permission refuses first;
- every listing holds each row its filters keep exactly once and no other
  row, in the model's default order, and each default order is total;
- a page of the post list is a slice of the unpaginated list;
- deleting what was just created restores the store, and repeating an
  accepted update changes nothing more.

Usernames stand for users, since Django usernames are unique. Timestamps are
a `now` parameter. The authentication layer is the `Actor` a request carries.

Some behaviour of the code is easy to get wrong:

- The routed API's `validate_following` checks that the target exists, then
  self-follow, then duplicates.
- Posts and comments break ties on ascending id (`['-pub_date', 'id']`,
  `['-created', 'id']`).
- In the `posts` revision, a comment route whose post is missing ends in an
  unhandled `Post.DoesNotExist` (`ServerError`), not a 404. On a create this
  happens only to a body that passes validation; an invalid body is refused
  first.
- On the `posts` revision's detail routes, the list's filters still apply:
  `get_object` filters the queryset first. An unknown `group` parameter is
  refused there too, and a post or follow row that the `group` or `search`
  parameters drop is a 404.
- The `posts` revision lets anonymous callers read posts, comments and
  groups. The routed API requires authentication for every endpoint.

The two revisions' post serializers differ in one respect. The `posts`
revision declares its image field without allowing null, so it refuses
`"image": null`. The routed API takes the field from the nullable model field
and accepts it.

## Model

| member | source | states |
|---|---|---|
| Models.Valid | yatube_api/posts/models.py:15-18 | the database constraints every store state meets: rows sit under their own ids, every foreign key names an existing row, no user follows themself (`prevent_self_follow`, models.py:123-126), a (user, following) pair occurs once (`unique_user_following`, models.py:119-122), and group slugs are unique |
| Models.InsertGroup | yatube_api/posts/models.py:10-19 | a group is refused exactly when its slug is already taken; otherwise it gets a fresh id and nothing else changes |
| Models.InsertPost | yatube_api/posts/models.py:30-53 | a post is stored exactly when its author and its group (if any) exist; it gets a fresh id and the given timestamp |
| Models.SavePost | yatube_api/posts/models.py:47-53 | an update rewrites only text, image and group, and keeps id, author and publication date; an unknown group is refused |
| Models.InsertComment | yatube_api/posts/models.py:71-87 | a comment is stored exactly when its author and post exist, under a fresh id |
| Models.SaveComment | yatube_api/posts/models.py:82 | an update rewrites only the text of a comment |
| Models.InsertFollow | yatube_api/posts/models.py:101-126 | a follow is stored exactly when both users exist, differ, and are not already paired; a refusal names the violated constraint: the foreign key when a user is missing, otherwise the self-follow check or the pair's uniqueness |
| Models.DeletePost | yatube_api/posts/models.py:77-81 | deleting a post deletes exactly its comments and keeps every other row |
| Models.DeleteComment | yatube_api/posts/models.py:71-81 | deleting a comment removes that row only |
| Models.DeleteFollow | yatube_api/posts/models.py:101-113 | deleting a follow removes that row only |
| Models.DeleteGroup | yatube_api/posts/models.py:47-53 | deleting a group keeps its posts and clears their group reference; other posts are untouched |
| Models.DeleteUser | yatube_api/posts/models.py:36-113 | deleting a user deletes their posts, the comments on those posts, their comments and every follow they take part in, and nothing else |
| Models.DefaultOrdersAreTotal | yatube_api/posts/models.py:24-128 | the four default orders are total and transitive, and two rows they cannot tell apart have the same id |
| Models.OrderedPosts | yatube_api/posts/models.py:59 | a post listing holds every kept post exactly once and nothing else, newest first, ties by ascending id |
| Models.OrderedComments | yatube_api/posts/models.py:93 | a comment listing holds every kept comment exactly once and nothing else, newest first, ties by ascending id |
| Models.OrderedGroups | yatube_api/posts/models.py:24 | the group listing holds every group exactly once, by title and then id |
| Models.OrderedFollows | yatube_api/posts/models.py:128 | a follow listing holds every kept follow exactly once and nothing else, by follower name, followed name, then id |
| Ordering.StrOrder | yatube_api/posts/models.py:128 | the order on usernames and titles is total, antisymmetric and transitive |
| Ordering.ContainsIffOccurs | yatube_api/posts/views.py:27-29 | the search test holds exactly when the term occurs at some position of the text |
| Ordering.PageOfSorted | yatube_api/posts/views.py:38-43 | a page holds only elements of the list, keeps its order, and repeats nothing the list does not repeat |
| Permissions.HasObjectPermission | yatube_api/api/permissions.py:10-12 | a safe method is always granted; an unsafe one only to the author; anonymous callers get the safe methods only |
| ApiSerializers.UserNotFoundMessage | yatube_api/api/serializers.py:55-57 | the "user not found" message can be told apart from the other two follow messages |
| ApiSerializers.ValidatePost | yatube_api/api/serializers.py:23-27 | a post body is accepted exactly when its text is present and non-empty (or left out of a partial update) and its group exists; author and date are never read; every failing field is reported |
| ApiSerializers.ValidateComment | yatube_api/api/serializers.py:30-35 | only the text of a comment body is read, and it is accepted exactly when present and non-empty (or left out of a partial update) |
| ApiSerializers.ResolveFollowing | yatube_api/api/serializers.py:43-46 | the `following` username resolves exactly when it names an existing user |
| ApiSerializers.ValidateFollowing | yatube_api/api/serializers.py:52-69 | a target is accepted exactly when it exists, is not the requester, and is not yet followed; the first failing check, in that order, decides the message |
| ApiSerializers.ValidateFollow | yatube_api/api/serializers.py:38-69 | the whole follow body is accepted exactly when the target exists, differs from the requester and is not yet followed; an unknown username fails at the lookup, so the "not found" message is never reported |
| PostsSerializers.ValidateFollow | yatube_api/posts/serializers.py:39-67 | the same acceptance as the routed API, with the duplicate check before the self check, both reported as non-field errors |
| PostsSerializers.ValidatePost | yatube_api/posts/serializers.py:7-17 | a post body is accepted exactly when the routed API would accept it and it does not send a null image; every failing field, the image included, is reported |
| PostsSerializers.PostValidationsAgree | yatube_api/posts/serializers.py:12 | on a body without a null image the two revisions' post validations give the same result |
| PostsSerializers.FollowValidationsAgree | yatube_api/posts/serializers.py:54-67 | on a consistent store the two follow serializers give the same result, or both refuse a self-follow, or both refuse a duplicate |
| ApiViews.Actions | yatube_api/api/views.py:15-82 | posts and comments offer every action, groups only safe ones, follows only list and create |
| ApiViews.ListPosts | yatube_api/api/views.py:15-22 | an authenticated caller gets every post exactly once, in the default order; anyone else is refused |
| ApiViews.RetrievePost | yatube_api/api/views.py:15-22 | an authenticated caller gets the post, or a 404 if it does not exist |
| ApiViews.CreatePost | yatube_api/api/views.py:25-27 | a refused body gets the serializer's validation error; a new post's author is the requester and its date is now, whatever the body says; no constraint ever refuses it |
| ApiViews.UpdatePost | yatube_api/api/views.py:29-32 | only the author updates a post; a non-author gets the default 403 message, and the view's own message is never produced; the author's refused body gets the serializer's validation error; only text, image and group change, and no constraint refuses the save |
| ApiViews.DestroyPost | yatube_api/api/views.py:34-37 | only the author deletes a post; exactly the post and its comments go, every other row stays as it was, and the view's own message is never produced |
| ApiViews.ListGroups | yatube_api/api/views.py:40-44 | an authenticated caller gets every group exactly once, in the default order |
| ApiViews.RetrieveGroup | yatube_api/api/views.py:40-44 | an authenticated caller gets the group, or a 404 |
| ApiViews.GetPost | yatube_api/api/views.py:52-54 | the path's post, or a 404 |
| ApiViews.GetComment | yatube_api/api/views.py:56-58 | a comment is found only under its own post; anything else is a 404 |
| ApiViews.ListComments | yatube_api/api/views.py:56-58 | each comment of the path's post exactly once and no other, in the default order; a missing post is a 404 |
| ApiViews.RetrieveComment | yatube_api/api/views.py:47-58 | an authenticated caller gets a comment of the path's post, or a 404 |
| ApiViews.CreateComment | yatube_api/api/views.py:60-65 | the body is validated before the post is loaded, so an invalid body is refused with the serializer's error even on a missing post, and a valid one on a missing post is a 404; the new comment's author is the requester and its post the path's post |
| ApiViews.UpdateComment | yatube_api/api/views.py:67-71 | a non-author's body is validated first and then refused with the view's own message; only the author's update is saved, and it changes only the text |
| ApiViews.DestroyComment | yatube_api/api/views.py:73-77 | only the author deletes a comment; others get the view's own message |
| ApiViews.ListFollowsAsWritten | yatube_api/api/views.py:90-92 | as written, every authenticated follow listing fails with an unhandled attribute error |
| ApiViews.ListFollows | yatube_api/api/views.py:86-92 | the corrected listing holds each of the requester's follows that match the search on either username exactly once, and no other, in the default order |
| ApiViews.CreateFollow | yatube_api/api/views.py:94-96 | a follow is created for the requester exactly when the serializer accepts it; the refusal is the serializer's, never a constraint's |
| ApiViews.FollowTwice | yatube_api/api/serializers.py:62-68 | following the same user twice: the second request is refused as a duplicate and exactly one row for the pair exists |
| ApiViews.CreateThenDestroyPost | yatube_api/api/views.py:25-37 | deleting a post right after creating it, as its author, restores the store apart from the id counter |
| ApiViews.CreateThenDestroyComment | yatube_api/api/views.py:60-77 | deleting a comment right after creating it restores the store apart from the id counter |
| ApiViews.UpdatePostIdempotent | yatube_api/api/views.py:29-32 | repeating an accepted post update succeeds and changes nothing more |
| ApiViews.UpdateCommentIdempotent | yatube_api/api/views.py:67-71 | repeating an accepted comment update succeeds and changes nothing more |
| ApiViews.FollowListingDiscrepancy | yatube_api/api/views.py:90-92 | a store with one follow on which the listing as written fails while the corrected listing returns that follow |
| PostsViews.Matching | yatube_api/posts/views.py:27-29 | the filtered list holds each post of the requested group whose text contains the search term exactly once, and no other, in the default order |
| PostsViews.ListPosts | yatube_api/posts/views.py:34-46 | anyone may list; an unknown group is a 400; without `limit` and `offset` the whole filtered list, with either of them a clamped slice of it at the given offset |
| PostsViews.ListedPostsMatch | yatube_api/posts/views.py:34-46 | whatever the pagination, every listed post exists and passes the filters, none is listed twice, and the listing is in the default order |
| PostsViews.PlainListAgreesWithApi | yatube_api/posts/views.py:45-46 | with no query parameters the list holds the same posts as the routed API's list |
| PostsViews.FindPost | yatube_api/posts/views.py:20-29 | a post route's lookup applies the list's filters: an unknown `group` is a validation error, and a missing post or one the filters drop is a 404; without filters it finds exactly the stored post |
| PostsViews.RetrievePost | yatube_api/posts/views.py:20-29 | anyone gets the post if it passes the request's filters, or the filter error or a 404 |
| PostsViews.CreatePost | yatube_api/posts/views.py:31-32 | writing needs an identity; a refused body, including one sending a null image, gets this revision's serializer error; the author is the requester and the date is now |
| PostsViews.UpdatePost | yatube_api/posts/views.py:20-29 | identity, then the filtered lookup (filter error or 404), then the owner check, then validation with this revision's serializer error, which refuses a null image; only text, image and group change |
| PostsViews.DestroyPost | yatube_api/posts/views.py:20-29 | identity, then the filtered lookup (filter error or 404), then only the author deletes a post; exactly the post and its comments go, and every other row stays as it was |
| PostsViews.GetPost | yatube_api/posts/views.py:57-59 | a missing path post is an unhandled `DoesNotExist`, not a 404 |
| PostsViews.GetComment | yatube_api/posts/views.py:57-59 | a missing post fails before the comment is looked up; a comment under another post is a 404 |
| PostsViews.ListComments | yatube_api/posts/views.py:55-59 | anyone gets each comment of the path's post exactly once and no other, unpaginated |
| PostsViews.RetrieveComment | yatube_api/posts/views.py:49-59 | anyone gets a comment of the path's post; a missing post is an unhandled error |
| PostsViews.CreateComment | yatube_api/posts/views.py:61-63 | the body is validated before the post is fetched, so an invalid body gets the serializer's error even on a missing post, and a valid one on a missing post is an unhandled error; the author is the requester and the post the path's post |
| PostsViews.UpdateComment | yatube_api/posts/views.py:49-59 | a missing post is an unhandled error, a comment not under the post a 404, a non-author a 403, and the author's invalid body the serializer's error, in that order; only that comment's text changes and every other row stays |
| PostsViews.DestroyComment | yatube_api/posts/views.py:49-59 | a missing post is an unhandled error, a comment not under the post a 404, a non-author a 403; only the author deletes a comment, and nothing else changes |
| PostsViews.ListGroups | yatube_api/posts/views.py:66-70 | anyone gets every group exactly once, in the default order |
| PostsViews.RetrieveGroup | yatube_api/posts/views.py:66-70 | anyone gets the group, or a 404 |
| PostsViews.ListFollows | yatube_api/posts/views.py:73-81 | an authenticated caller gets each of their own follows whose followed name contains the search term exactly once, and no other |
| PostsViews.CreateFollow | yatube_api/posts/views.py:83-84 | a follow is created for the requester exactly when this revision's serializer accepts it, and any refusal is that serializer's error (duplicate before self-follow, under `non_field_errors`) |
| PostsViews.RetrieveFollow | yatube_api/posts/views.py:73-81 | a follow row is visible only to its follower and only while the `search` parameter keeps it; otherwise it is a 404 |
| PostsViews.DestroyFollow | yatube_api/posts/views.py:73-81 | only the follower deletes a follow row the `search` parameter keeps, and nothing else changes |
| PostsViews.FollowThenUnfollow | yatube_api/posts/views.py:73-84 | the follower sees the follow row just created, and deleting it restores the store apart from the id counter |
| PostsViews.CreatePostAgreesWithApi | yatube_api/posts/views.py:31-32 | a body without a null image creates the same post in both revisions |
| PostsViews.NullImageDiverges | yatube_api/posts/serializers.py:12 | a concrete body with a null image that the routed API stores without an image and this revision refuses |
| PostsViews.CreateFollowAgreesWithApi | yatube_api/posts/views.py:83-84 | both revisions create a follow in exactly the same cases, with the same resulting store |

## Left out

- HTTP status codes, response bodies and the paginated envelope (`count`, `next`, `previous`) are not modelled. Errors are `Errors.Error` values named after the framework exceptions.
- The routed API's pagination settings are not among these sources, so its listings return the whole ordered list.
- The `posts` revision's follow update (PUT/PATCH on a follow) is left out. It depends on how the unique-together validator excludes the instance being updated.
- `yatube_api/posts/permissions.py` is not part of this model. `IsOwnerOrReadOnly` is taken to be the same test as `IsAuthorOrReadOnly`.
- PostsViews.ListPosts: `limit` and `offset` are integers or absent. A present but non-numeric value is not modelled; it behaves like a non-positive one, and such values are not distinguished.
- Ordering.Contains: the search is case-sensitive on code points and uses a single term. The framework's search is case-insensitive and splits the term on whitespace and commas.
- Ordering.StrLe: titles and usernames compare by code point. Database collation is not modelled.
- ApiSerializers.ValidatePost: leading and trailing whitespace is not trimmed before the blank check, so a whitespace-only text is accepted and stored untrimmed where the framework would refuse it as blank. Field length limits (`max_length`) are not checked, and neither is the image file itself. An image is an opaque reference.
- ApiSerializers.ValidateComment: the same whitespace gap. A whitespace-only comment text is accepted, and the text is stored untrimmed.
- ApiSerializers.TextAccepted: tests for the empty string only. Every caller inherits the whitespace gap, including the `posts` revision's writes.
- PostsSerializers.ValidatePost: the same whitespace gap as the routed API's post validation.
- Authentication and token issuance are an `Actor` parameter. Clocks are a `now` parameter.
- Concurrent requests are not modelled. A race between two identical follow requests, which the unique constraint would settle, is therefore not modelled either.
- The `ordering` attribute of the API post view takes effect only through an ordering filter, which these sources do not configure. Listings use the model's default order.
- The admin site, URL routing beyond the set of actions per viewset, migrations and `__str__` methods are not modelled.

## Findings

| source | as written | input that shows it | evidently intended | confidence | as-written member | corrected member |
|---|---|---|---|---|---|---|
| yatube_api/api/views.py:92 | `get_queryset` reads `self.request.user.follower`, but the reverse accessor of `Follow.user` is `followers` (models.py:106) | an authenticated GET of the follow list by `alice`, who follows `bob` | the requester's own follows, as the docstring says | high, not executed | ApiViews.ListFollowsAsWritten | ApiViews.ListFollows |

=== FILE: api_serializers.dfy ===
/** Request-body validation of the routed API: which fields a client may
    write, what makes them invalid, and the checks on a new follow. */
module ApiSerializers {
  import opened Wrappers
  import opened Errors
  import opened Models
  import opened Requests

  const SelfFollowMessage := "Нельзя подписаться на самого себя."
  const AlreadySubscribedMessage := "Вы уже подписаны на этого пользователя."

  /** Starts with a letter that neither of the other two messages starts
      with, so it can be told apart from them whatever the username. */
  function UserNotFoundMessage(username: Username): (m: string)
    ensures |m| > 0 && m[0] == 'П' && m[0] != SelfFollowMessage[0] && m[0] != AlreadySubscribedMessage[0]
  {
    "Пользователь " + username + " не найден"
  }

  /** The writable fields of a post once validated. */
  datatype PostFields = PostFields(text: string, image: Option<string>, group: Option<Id>)

  /** What a create starts from: a post with no group and no image. */
  const NewPost := PostFields("", None, None)

  function FieldsOf(p: Post): PostFields {
    PostFields(p.text, p.image, p.group)
  }

  /** A text field is acceptable when it is sent non-empty, or left out of a
      partial update. */
  predicate TextAccepted(text: Field<string>, partial: bool) {
    match text
    case Absent => partial
    case Given(t) => t != ""
  }

  /** A group field is acceptable when it is left out, null, or an existing
      group's id. */
  predicate GroupAccepted(s: Store, group: Field<Option<Id>>) {
    group.Given? ==> GroupRef(s, group.value)
  }

  function TextProblems(text: Field<string>, partial: bool): (r: map<string, Problem>)
    ensures r.Keys <= {"text"}
    ensures "text" in r <==> !TextAccepted(text, partial)
  {
    match text
    case Absent => if partial then map[] else map["text" := Required]
    case Given(t) => if t == "" then map["text" := Blank] else map[]
  }

  function GroupProblems(s: Store, group: Field<Option<Id>>): (r: map<string, Problem>)
    ensures r.Keys <= {"group"}
    ensures "group" in r <==> !GroupAccepted(s, group)
  {
    if GroupAccepted(s, group) then map[] else map["group" := NoSuchObject]
  }

  function Pick<T>(f: Field<T>, current: T): T {
    if f.Given? then f.value else current
  }

  /** Validates a post body against the fields it would change (`base`: the
      stored post on an update, `NewPost` on a create). Every failing field
      is reported, and `author` and `pubDate` are never read. */
  function ValidatePost(s: Store, req: PostRequest, partial: bool, base: PostFields): (r: Result<PostFields, Error>)
    ensures r.Success? <==> TextAccepted(req.text, partial) && GroupAccepted(s, req.group)
    ensures r.Success? ==>
      && r.value.text == Pick(req.text, base.text)
      && r.value.image == Pick(req.image, base.image)
      && r.value.group == Pick(req.group, base.group)
      && (req.text.Given? ==> r.value.text != "")
      && (req.group.Given? ==> GroupRef(s, r.value.group))
    ensures r.Failure? ==>
      && r.error.ValidationError?
      && ("text" in r.error.problems <==> !TextAccepted(req.text, partial))
      && ("group" in r.error.problems <==> !GroupAccepted(s, req.group))
  {
    var problems := TextProblems(req.text, partial) + GroupProblems(s, req.group);
    if problems != map[] then Failure(ValidationError(problems))
    else
      assert "text" !in problems && "group" !in problems;
      Success(PostFields(Pick(req.text, base.text), Pick(req.image, base.image), Pick(req.group, base.group)))
  }

  /** Validates a comment body: only `text` is writable, so `author`, `post`
      and `created` are never read. */
  function ValidateComment(req: CommentRequest, partial: bool, base: string): (r: Result<string, Error>)
    ensures r.Success? <==> TextAccepted(req.text, partial)
    ensures r.Success? ==> r.value == Pick(req.text, base) && (req.text.Given? ==> r.value != "")
    ensures r.Failure? ==> r.error.ValidationError? && r.error.problems.Keys == {"text"}
  {
    var problems := TextProblems(req.text, partial);
    if problems != map[] then Failure(ValidationError(problems)) else Success(Pick(req.text, base))
  }

  /** The `following` field is looked up by username among all users before
      any validator of the serializer runs. */
  function ResolveFollowing(s: Store, following: Field<Username>): (r: Result<Username, Error>)
    ensures r.Success? <==> following.Given? && following.value in s.users
    ensures r.Success? ==> r.value == following.value
    ensures r.Failure? ==> r.error == FieldError("following", if following.Absent? then Required else NoSuchObject)
  {
    match following
    case Absent => Failure(FieldError("following", Required))
    case Given(name) => if name in s.users then Success(name) else Failure(FieldError("following", NoSuchObject))
  }

  /** `FollowSerializer.validate_following`: the target must exist, must not
      be the requester, and must not be followed already, checked in that
      order; the first check that fails decides the error. */
  function ValidateFollowing(s: Store, user: Username, value: Username): (r: Result<Username, Error>)
    ensures r.Success? <==> value in s.users && user != value && !Follows(s, user, value)
    ensures r.Success? ==> r.value == value
    ensures value !in s.users ==>
      r == Failure(FieldError("following", Message(UserNotFoundMessage(value))))
    ensures value in s.users && user == value ==>
      r == Failure(FieldError("following", Message(SelfFollowMessage)))
    ensures value in s.users && user != value && Follows(s, user, value) ==>
      r == Failure(FieldError("following", Message(AlreadySubscribedMessage)))
  {
    if value !in s.users then Failure(FieldError("following", Message(UserNotFoundMessage(value))))
    else if user == value then Failure(FieldError("following", Message(SelfFollowMessage)))
    else if Follows(s, user, value) then Failure(FieldError("following", Message(AlreadySubscribedMessage)))
    else Success(value)
  }

  /** The whole follow body: the field lookup, then `validate_following`.
      Because the lookup already refuses an unknown username, the "not found"
      message of `validate_following` is never the one reported. */
  function ValidateFollow(s: Store, user: Username, req: FollowRequest): (r: Result<Username, Error>)
    ensures r.Success? <==>
      req.following.Given? && req.following.value in s.users
      && user != req.following.value && !Follows(s, user, req.following.value)
    ensures r.Success? ==> r.value == req.following.value
    ensures req.following.Given? && req.following.value !in s.users ==>
      r == Failure(FieldError("following", NoSuchObject))
    ensures forall name :: r != Failure(FieldError("following", Message(UserNotFoundMessage(name))))
  {
    var name :- ResolveFollowing(s, req.following);
    ValidateFollowing(s, user, name)
  }
}

=== FILE: api_views.dfy ===
/** The routed resource services: posts, groups, comments under a post, and
    follows. Every endpoint needs an authenticated actor. Each action runs the
    framework's steps in their order: authentication, loading the addressed
    row (404), the object permission (403), body validation (400), the
    view's own `perform_*` check, then the write. A refused action returns
    no store, so the store the caller holds is left as it was. */
module ApiViews {
  import opened Wrappers
  import opened Errors
  import opened Ordering
  import opened Models
  import opened Requests
  import opened Permissions
  import opened ApiSerializers

  const PostUpdateDenied := "Изменение чужого поста запрещено!"
  const PostDeleteDenied := "Удаление чужого поста запрещено!"
  const CommentUpdateDenied := "Изменение чужого комментария запрещено!"
  const CommentDeleteDenied := "Удаление чужого комментария запрещено!"

  /** The exception raised by reading `user.follower`: the reverse accessor of
      `Follow.user` is named `followers`. */
  const NoFollowerAttribute := "'User' object has no attribute 'follower'"

  // ---------------------------------------------------------------------
  // Routes

  datatype Action = List | Create | Retrieve | Update | PartialUpdate | Destroy
  datatype Resource = PostRoutes | GroupRoutes | CommentRoutes | FollowRoutes

  function MethodOf(a: Action): Method {
    match a
    case List => GET
    case Retrieve => GET
    case Create => POST
    case Update => PUT
    case PartialUpdate => PATCH
    case Destroy => DELETE
  }

  /** An action on one addressed row rather than on the collection. */
  predicate IsDetail(a: Action) {
    a.Retrieve? || a.Update? || a.PartialUpdate? || a.Destroy?
  }

  /** The actions each viewset provides: full model viewsets for posts and
      comments, a read-only one for groups, and only create and list for
      follows. */
  function Actions(res: Resource): (r: set<Action>)
    ensures res.PostRoutes? || res.CommentRoutes? ==>
      List in r && Create in r && Retrieve in r && Update in r && PartialUpdate in r && Destroy in r
    ensures res.GroupRoutes? ==> forall a :: a in r ==> IsSafe(MethodOf(a))
    ensures res.GroupRoutes? ==> List in r && Retrieve in r
    ensures res.FollowRoutes? ==> forall a :: a in r ==> !IsDetail(a)
    ensures res.FollowRoutes? ==> List in r && Create in r
  {
    match res
    case PostRoutes => {List, Create, Retrieve, Update, PartialUpdate, Destroy}
    case CommentRoutes => {List, Create, Retrieve, Update, PartialUpdate, Destroy}
    case GroupRoutes => {List, Retrieve}
    case FollowRoutes => {List, Create}
  }

  // ---------------------------------------------------------------------
  // Posts

  function ListPosts(s: Store, actor: Actor): (r: Result<seq<Post>, Error>)
    requires Valid(s)
    ensures !Authenticated(s, actor) ==> r == Failure(NotAuthenticated)
    ensures Authenticated(s, actor) ==> r.Success?
    ensures r.Success? ==>
      (forall p :: p in r.value <==> p in s.posts.Values) && NoDuplicates(r.value) && SortedBy(r.value, PostLe)
  {
    if !Authenticated(s, actor) then Failure(NotAuthenticated)
    else Success(OrderedPosts(s, _ => true))
  }

  function RetrievePost(s: Store, actor: Actor, id: Id): (r: Result<Post, Error>)
    requires Valid(s)
    ensures !Authenticated(s, actor) ==> r == Failure(NotAuthenticated)
    ensures Authenticated(s, actor) && id !in s.posts ==> r == Failure(NotFound)
    ensures r.Success? <==> Authenticated(s, actor) && id in s.posts
    ensures r.Success? ==> r.value == s.posts[id]
  {
    if !Authenticated(s, actor) then Failure(NotAuthenticated)
    else if id !in s.posts then Failure(NotFound)
    else Success(s.posts[id])
  }

  /** `perform_create` saves the post with the requester as author; the
      author and publication date a client sends are never read. */
  function CreatePost(s: Store, actor: Actor, req: PostRequest, now: nat): (r: Result<Created<Post>, Error>)
    requires Valid(s)
    ensures !Authenticated(s, actor) ==> r == Failure(NotAuthenticated)
    ensures Authenticated(s, actor) && !(TextAccepted(req.text, false) && GroupAccepted(s, req.group)) ==>
      r == Failure(ValidatePost(s, req, false, NewPost).error)
    ensures r.Success? <==> Authenticated(s, actor) && TextAccepted(req.text, false) && GroupAccepted(s, req.group)
    ensures r.Success? ==>
      var p := r.value.row;
      && actor == User(p.author)
      && p.pubDate == now
      && p.text == req.text.value
      && p.image == Pick(req.image, None)
      && p.group == Pick(req.group, None)
      && p.id !in s.posts
      && r.value.store.posts == s.posts[p.id := p]
      && r.value.store.(posts := s.posts, nextId := s.nextId) == s
      && Valid(r.value.store)
    ensures r.Failure? ==> !r.error.IntegrityError?
  {
    if !Authenticated(s, actor) then Failure(NotAuthenticated)
    else
      var fields :- ValidatePost(s, req, false, NewPost);
      InsertPost(s, actor.name, fields.text, fields.image, fields.group, now)
  }

  /** The object permission `IsAuthorOrReadOnly` runs while the post is
      loaded, before the body is validated; the view's own author check in
      `perform_update` comes after it and can never refuse. */
  function UpdatePost(s: Store, actor: Actor, id: Id, req: PostRequest, partial: bool): (r: Result<Created<Post>, Error>)
    requires Valid(s)
    ensures !Authenticated(s, actor) ==> r == Failure(NotAuthenticated)
    ensures Authenticated(s, actor) && id !in s.posts ==> r == Failure(NotFound)
    ensures Authenticated(s, actor) && id in s.posts && s.posts[id].author != actor.name ==>
      r == Failure(PermissionDenied(DefaultDenied))
    ensures Authenticated(s, actor) && id in s.posts && s.posts[id].author == actor.name
            && !(TextAccepted(req.text, partial) && GroupAccepted(s, req.group)) ==>
      r == Failure(ValidatePost(s, req, partial, FieldsOf(s.posts[id])).error)
    ensures r.Success? <==>
      Authenticated(s, actor) && id in s.posts && s.posts[id].author == actor.name
      && TextAccepted(req.text, partial) && GroupAccepted(s, req.group)
    ensures r.Success? ==>
      var p := r.value.row;
      && p.id == id && p.author == s.posts[id].author && p.pubDate == s.posts[id].pubDate
      && p.text == Pick(req.text, s.posts[id].text)
      && p.image == Pick(req.image, s.posts[id].image)
      && p.group == Pick(req.group, s.posts[id].group)
      && r.value.store.posts == s.posts[id := p]
      && r.value.store.(posts := s.posts) == s
      && Valid(r.value.store)
    ensures r != Failure(PermissionDenied(PostUpdateDenied))
    ensures r.Failure? ==> !r.error.IntegrityError?
  {
    if !Authenticated(s, actor) then Failure(NotAuthenticated)
    else if id !in s.posts then Failure(NotFound)
    else if !HasObjectPermission(UpdateMethod(partial), actor, s.posts[id].author) then
      Failure(PermissionDenied(DefaultDenied))
    else
      var fields :- ValidatePost(s, req, partial, FieldsOf(s.posts[id]));
      if s.posts[id].author != actor.name then Failure(PermissionDenied(PostUpdateDenied))
      else SavePost(s, id, fields.text, fields.image, fields.group)
  }

  /** Deleting a post takes its comments with it. As on update, the object
      permission refuses a non-author before `perform_destroy` is reached. */
  function DestroyPost(s: Store, actor: Actor, id: Id): (r: Result<Store, Error>)
    requires Valid(s)
    ensures !Authenticated(s, actor) ==> r == Failure(NotAuthenticated)
    ensures Authenticated(s, actor) && id !in s.posts ==> r == Failure(NotFound)
    ensures Authenticated(s, actor) && id in s.posts && s.posts[id].author != actor.name ==>
      r == Failure(PermissionDenied(DefaultDenied))
    ensures r.Success? <==> Authenticated(s, actor) && id in s.posts && s.posts[id].author == actor.name
    ensures r.Success? ==>
      && r.value.posts == s.posts - {id}
      && (forall k :: k in r.value.comments <==> k in s.comments && s.comments[k].post != id)
      && (forall k :: k in r.value.comments ==> r.value.comments[k] == s.comments[k])
      && r.value.(posts := s.posts, comments := s.comments) == s
      && Valid(r.value)
    ensures r != Failure(PermissionDenied(PostDeleteDenied))
    ensures r.Failure? ==> !r.error.IntegrityError?
  {
    if !Authenticated(s, actor) then Failure(NotAuthenticated)
    else if id !in s.posts then Failure(NotFound)
    else if !HasObjectPermission(DELETE, actor, s.posts[id].author) then Failure(PermissionDenied(DefaultDenied))
    else if s.posts[id].author != actor.name then Failure(PermissionDenied(PostDeleteDenied))
    else Success(DeletePost(s, id))
  }

  // ---------------------------------------------------------------------
  // Groups (read-only)

  function ListGroups(s: Store, actor: Actor): (r: Result<seq<Group>, Error>)
    requires Valid(s)
    ensures r.Success? <==> Authenticated(s, actor)
    ensures r.Failure? ==> r.error == NotAuthenticated
    ensures r.Success? ==>
      (forall g :: g in r.value <==> g in s.groups.Values) && NoDuplicates(r.value) && SortedBy(r.value, GroupLe)
  {
    if !Authenticated(s, actor) then Failure(NotAuthenticated) else Success(OrderedGroups(s))
  }

  function RetrieveGroup(s: Store, actor: Actor, id: Id): (r: Result<Group, Error>)
    requires Valid(s)
    ensures !Authenticated(s, actor) ==> r == Failure(NotAuthenticated)
    ensures Authenticated(s, actor) && id !in s.groups ==> r == Failure(NotFound)
    ensures r.Success? <==> Authenticated(s, actor) && id in s.groups
    ensures r.Success? ==> r.value == s.groups[id]
  {
    if !Authenticated(s, actor) then Failure(NotAuthenticated)
    else if id !in s.groups then Failure(NotFound)
    else Success(s.groups[id])
  }

  // ---------------------------------------------------------------------
  // Comments, scoped to the post named in the path

  /** `_get_post`: the path's post, or 404. */
  function GetPost(s: Store, postId: Id): (r: Result<Post, Error>)
    ensures r.Success? <==> postId in s.posts
    ensures r.Success? ==> r.value == s.posts[postId]
    ensures r.Failure? ==> r.error == NotFound
  {
    if postId in s.posts then Success(s.posts[postId]) else Failure(NotFound)
  }

  /** Loads comment `id` from the comments of the path's post: 404 when the
      post is missing, or when the comment is missing or under another post. */
  function GetComment(s: Store, postId: Id, id: Id): (r: Result<Comment, Error>)
    ensures r.Success? <==> postId in s.posts && id in s.comments && s.comments[id].post == postId
    ensures r.Success? ==> r.value == s.comments[id]
    ensures r.Failure? ==> r.error == NotFound
  {
    var _ :- GetPost(s, postId);
    if id in s.comments && s.comments[id].post == postId then Success(s.comments[id]) else Failure(NotFound)
  }

  /** Exactly the comments of the path's post, in the default comment order. */
  function ListComments(s: Store, actor: Actor, postId: Id): (r: Result<seq<Comment>, Error>)
    requires Valid(s)
    ensures !Authenticated(s, actor) ==> r == Failure(NotAuthenticated)
    ensures Authenticated(s, actor) && postId !in s.posts ==> r == Failure(NotFound)
    ensures r.Success? <==> Authenticated(s, actor) && postId in s.posts
    ensures r.Success? ==>
      && (forall c :: c in r.value <==> c in s.comments.Values && c.post == postId)
      && NoDuplicates(r.value)
      && SortedBy(r.value, CommentLe)
  {
    if !Authenticated(s, actor) then Failure(NotAuthenticated)
    else
      var _ :- GetPost(s, postId);
      Success(OrderedComments(s, (c: Comment) => c.post == postId))
  }

  function RetrieveComment(s: Store, actor: Actor, postId: Id, id: Id): (r: Result<Comment, Error>)
    requires Valid(s)
    ensures !Authenticated(s, actor) ==> r == Failure(NotAuthenticated)
    ensures r.Success? <==> Authenticated(s, actor) && id in s.comments && s.comments[id].post == postId
    ensures r.Success? ==> r.value == s.comments[id]
    ensures Authenticated(s, actor) && r.Failure? ==> r.error == NotFound
  {
    if !Authenticated(s, actor) then Failure(NotAuthenticated) else GetComment(s, postId, id)
  }

  /** The body is validated first; then the path's post is loaded, so an
      acceptable comment on a missing post is a 404. The comment's author is
      the requester and its post the path's post, whatever the body says. */
  function CreateComment(s: Store, actor: Actor, postId: Id, req: CommentRequest, now: nat)
    : (r: Result<Created<Comment>, Error>)
    requires Valid(s)
    ensures !Authenticated(s, actor) ==> r == Failure(NotAuthenticated)
    ensures Authenticated(s, actor) && TextAccepted(req.text, false) && postId !in s.posts ==>
      r == Failure(NotFound)
    ensures Authenticated(s, actor) && !TextAccepted(req.text, false) ==>
      r == Failure(ValidateComment(req, false, "").error)
    ensures r.Success? <==> Authenticated(s, actor) && TextAccepted(req.text, false) && postId in s.posts
    ensures r.Success? ==>
      var c := r.value.row;
      && actor == User(c.author)
      && c.post == postId
      && c.created == now
      && c.text == req.text.value
      && c.id !in s.comments
      && r.value.store.comments == s.comments[c.id := c]
      && r.value.store.(comments := s.comments, nextId := s.nextId) == s
      && Valid(r.value.store)
    ensures r.Failure? ==> !r.error.IntegrityError?
  {
    if !Authenticated(s, actor) then Failure(NotAuthenticated)
    else
      var text :- ValidateComment(req, false, "");
      var post :- GetPost(s, postId);
      InsertComment(s, actor.name, post.id, text, now)
  }

  /** No object permission guards comments here: a non-author's body is
      validated first, and only then does `perform_update` refuse it. */
  function UpdateComment(s: Store, actor: Actor, postId: Id, id: Id, req: CommentRequest, partial: bool)
    : (r: Result<Created<Comment>, Error>)
    requires Valid(s)
    ensures !Authenticated(s, actor) ==> r == Failure(NotAuthenticated)
    ensures Authenticated(s, actor) && !(id in s.comments && s.comments[id].post == postId) ==>
      r == Failure(NotFound)
    ensures Authenticated(s, actor) && id in s.comments && s.comments[id].post == postId ==>
      && (!TextAccepted(req.text, partial) ==> r.Failure? && r.error.ValidationError?)
      && (TextAccepted(req.text, partial) && s.comments[id].author != actor.name ==>
            r == Failure(PermissionDenied(CommentUpdateDenied)))
    ensures r.Success? <==>
      Authenticated(s, actor) && id in s.comments && s.comments[id].post == postId
      && s.comments[id].author == actor.name && TextAccepted(req.text, partial)
    ensures r.Success? ==>
      && r.value.row == s.comments[id].(text := Pick(req.text, s.comments[id].text))
      && r.value.store.comments == s.comments[id := r.value.row]
      && r.value.store.(comments := s.comments) == s
      && Valid(r.value.store)
    ensures r.Failure? ==> !r.error.IntegrityError?
  {
    if !Authenticated(s, actor) then Failure(NotAuthenticated)
    else
      var c :- GetComment(s, postId, id);
      var text :- ValidateComment(req, partial, c.text);
      if c.author != actor.name then Failure(PermissionDenied(CommentUpdateDenied))
      else Success(SaveComment(s, id, text))
  }

  function DestroyComment(s: Store, actor: Actor, postId: Id, id: Id): (r: Result<Store, Error>)
    requires Valid(s)
    ensures !Authenticated(s, actor) ==> r == Failure(NotAuthenticated)
    ensures Authenticated(s, actor) && !(id in s.comments && s.comments[id].post == postId) ==>
      r == Failure(NotFound)
    ensures (Authenticated(s, actor) && id in s.comments && s.comments[id].post == postId
             && s.comments[id].author != actor.name) ==>
      r == Failure(PermissionDenied(CommentDeleteDenied))
    ensures r.Success? <==>
      Authenticated(s, actor) && id in s.comments && s.comments[id].post == postId
      && s.comments[id].author == actor.name
    ensures r.Success? ==>
      r.value.comments == s.comments - {id} && r.value.(comments := s.comments) == s && Valid(r.value)
    ensures r.Failure? ==> !r.error.IntegrityError?
  {
    if !Authenticated(s, actor) then Failure(NotAuthenticated)
    else
      var c :- GetComment(s, postId, id);
      if c.author != actor.name then Failure(PermissionDenied(CommentDeleteDenied))
      else Success(DeleteComment(s, id))
  }

  // ---------------------------------------------------------------------
  // Follows: create and list only, scoped to the requester

  /** A follow matches a search term that occurs in either username. */
  predicate FollowSearchHit(search: Option<string>, f: Follow) {
    search.None? || Contains(f.following, search.value) || Contains(f.user, search.value)
  }

  /** `get_queryset` as written: it reads `user.follower`, an attribute no
      user has, so every authenticated listing ends in an unhandled
      exception. */
  function ListFollowsAsWritten(s: Store, actor: Actor, search: Option<string>): (r: Result<seq<Follow>, Error>)
    requires Valid(s)
    ensures !Authenticated(s, actor) ==> r == Failure(NotAuthenticated)
    ensures Authenticated(s, actor) ==> r == Failure(ServerError(NoFollowerAttribute))
  {
    if !Authenticated(s, actor) then Failure(NotAuthenticated)
    else Failure(ServerError(NoFollowerAttribute))
  }

  /** `get_queryset` as its docstring describes it: the requester's own
      follows, narrowed by the search term, in the default follow order. */
  function ListFollows(s: Store, actor: Actor, search: Option<string>): (r: Result<seq<Follow>, Error>)
    requires Valid(s)
    ensures r.Success? <==> Authenticated(s, actor)
    ensures r.Failure? ==> r.error == NotAuthenticated
    ensures r.Success? ==>
      && (forall f :: f in r.value <==> f in s.follows.Values && actor == User(f.user) && FollowSearchHit(search, f))
      && NoDuplicates(r.value)
      && SortedBy(r.value, FollowLe)
  {
    if !Authenticated(s, actor) then Failure(NotAuthenticated)
    else Success(OrderedFollows(s, (f: Follow) => f.user == actor.name && FollowSearchHit(search, f)))
  }

  /** `perform_create` saves the follow with the requester as `user`. The
      serializer refuses every follow the database constraints would, so a
      constraint is never what refuses it. */
  function CreateFollow(s: Store, actor: Actor, req: FollowRequest): (r: Result<Created<Follow>, Error>)
    requires Valid(s)
    ensures !Authenticated(s, actor) ==> r == Failure(NotAuthenticated)
    ensures Authenticated(s, actor) ==> r.Success? == ValidateFollow(s, actor.name, req).Success?
    ensures Authenticated(s, actor) && r.Failure? ==> r == Failure(ValidateFollow(s, actor.name, req).error)
    ensures r.Success? ==>
      var f := r.value.row;
      && actor == User(f.user)
      && req.following == Given(f.following)
      && f.user != f.following
      && !Follows(s, f.user, f.following)
      && r.value.store.follows == s.follows[f.id := f]
      && r.value.store.(follows := s.follows, nextId := s.nextId) == s
      && Valid(r.value.store)
    ensures r.Failure? ==> !r.error.IntegrityError?
  {
    if !Authenticated(s, actor) then Failure(NotAuthenticated)
    else
      var following :- ValidateFollow(s, actor.name, req);
      InsertFollow(s, actor.name, following)
  }

  // ---------------------------------------------------------------------
  // Properties across calls

  /** Following the same user twice: the second request is refused as a
      duplicate, and the store holds exactly one row for the pair. */
  lemma FollowTwice(s: Store, actor: Actor, req: FollowRequest)
    requires Valid(s)
    requires CreateFollow(s, actor, req).Success?
    ensures var s1 := CreateFollow(s, actor, req).value.store;
      && CreateFollow(s1, actor, req) == Failure(FieldError("following", Message(AlreadySubscribedMessage)))
      && (exists k :: k in s1.follows && s1.follows[k].user == actor.name
                      && Given(s1.follows[k].following) == req.following)
      && (forall a, b ::
            a in s1.follows && b in s1.follows
            && s1.follows[a].user == s1.follows[b].user == actor.name
            && Given(s1.follows[a].following) == Given(s1.follows[b].following) == req.following
            ==> a == b)
  {
    var c := CreateFollow(s, actor, req).value;
    var f := c.row;
    assert c.store.follows[f.id] == f;
    assert Follows(c.store, actor.name, f.following);
  }

  /** Deleting a post just created, as its author, gives back the store the
      create started from, apart from the id counter. */
  lemma CreateThenDestroyPost(s: Store, actor: Actor, req: PostRequest, now: nat)
    requires Valid(s)
    requires CreatePost(s, actor, req, now).Success?
    ensures var c := CreatePost(s, actor, req, now).value;
      DestroyPost(c.store, actor, c.row.id) == Success(s.(nextId := c.store.nextId))
  {
    var c := CreatePost(s, actor, req, now).value;
    var r := DeletePost(c.store, c.row.id);
    assert r.comments == s.comments;
    assert r.posts == s.posts;
  }

  /** The same for a comment: deleting it right after creating it restores
      the store, apart from the id counter. */
  lemma CreateThenDestroyComment(s: Store, actor: Actor, postId: Id, req: CommentRequest, now: nat)
    requires Valid(s)
    requires CreateComment(s, actor, postId, req, now).Success?
    ensures var c := CreateComment(s, actor, postId, req, now).value;
      DestroyComment(c.store, actor, postId, c.row.id) == Success(s.(nextId := c.store.nextId))
  {
    var c := CreateComment(s, actor, postId, req, now).value;
    assert c.store.comments - {c.row.id} == s.comments;
  }

  /** Sending an accepted post update a second time changes nothing more. */
  lemma UpdatePostIdempotent(s: Store, actor: Actor, id: Id, req: PostRequest, partial: bool)
    requires Valid(s)
    requires UpdatePost(s, actor, id, req, partial).Success?
    ensures var c := UpdatePost(s, actor, id, req, partial).value;
      UpdatePost(c.store, actor, id, req, partial) == Success(c)
  {
    var c := UpdatePost(s, actor, id, req, partial).value;
    assert c.store.posts[id := c.row] == c.store.posts;
  }

  /** Sending an accepted comment update a second time changes nothing more. */
  lemma UpdateCommentIdempotent(s: Store, actor: Actor, postId: Id, id: Id, req: CommentRequest, partial: bool)
    requires Valid(s)
    requires UpdateComment(s, actor, postId, id, req, partial).Success?
    ensures var c := UpdateComment(s, actor, postId, id, req, partial).value;
      UpdateComment(c.store, actor, postId, id, req, partial) == Success(c)
  {
    var c := UpdateComment(s, actor, postId, id, req, partial).value;
    assert c.store.comments[id := c.row] == c.store.comments;
  }

  /** The listing as written never returns anything, while the requester's
      follows exist: the smallest store that shows it. */
  lemma FollowListingDiscrepancy()
    ensures
      var s := Store({"alice", "bob"}, map[], map[], map[], map[0 := Follow(0, "alice", "bob")], 1);
      && Valid(s)
      && ListFollowsAsWritten(s, User("alice"), None).Failure?
      && ListFollows(s, User("alice"), None).Success?
      && Follow(0, "alice", "bob") in ListFollows(s, User("alice"), None).value
  {
    var s := Store({"alice", "bob"}, map[], map[], map[], map[0 := Follow(0, "alice", "bob")], 1);
    assert s.follows[0] in s.follows.Values;
  }
}

=== FILE: errors.dfy ===
/** The ways a request is refused, one per exception the service raises. */
module Errors {

  /** Why one field (or the request as a whole) failed validation. */
  datatype Problem =
    | Required                  // a required field was not sent
    | Blank                     // a text field was sent empty
    | Null                      // a field that may not be null was sent as null
    | NoSuchObject              // a related-object key names no row
    | Message(text: string)     // a message raised by the service itself

  datatype Error =
    | NotAuthenticated                       // no identity where one is needed
    | PermissionDenied(message: string)      // an identity that may not do this
    | NotFound                               // the addressed row does not exist
    | ValidationError(problems: map<string, Problem>)  // field name to problem
    | IntegrityError(constraint: string)     // a database constraint refused the write
    | ServerError(message: string)           // an exception nothing handles

  /** The key under which errors that belong to no single field are reported. */
  const NonFieldErrors := "non_field_errors"

  /** The message the framework gives when a permission class refuses. */
  const DefaultDenied := "You do not have permission to perform this action."

  function FieldError(field: string, problem: Problem): (e: Error)
    ensures e.ValidationError? && e.problems.Keys == {field} && e.problems[field] == problem
  {
    ValidationError(map[field := problem])
  }
}

=== FILE: models.dfy ===
/** The relationship store: groups, posts, comments and follows, the database
    constraints on them, what each delete cascades to, and the default order
    of every table. */
module Models {
  import opened Wrappers
  import opened Errors
  import opened Ordering

  /** Users are identified by their (unique) username. */
  type Username = string
  type Id = nat

  datatype Group = Group(id: Id, title: string, slug: string, description: string)

  /** `image` is an opaque reference into the blob store; `pubDate` is the
      creation timestamp. */
  datatype Post = Post(
    id: Id,
    text: string,
    pubDate: nat,
    author: Username,
    image: Option<string>,
    group: Option<Id>)

  datatype Comment = Comment(id: Id, author: Username, post: Id, text: string, created: nat)

  /** `user` follows `following`. */
  datatype Follow = Follow(id: Id, user: Username, following: Username)

  /** The database. Rows are keyed by their id. One counter, `nextId`,
      serves every table: the tables' own id sequences are not modelled, and
      a new row's id only needs to be fresh in its table. */
  datatype Store = Store(
    users: set<Username>,
    groups: map<Id, Group>,
    posts: map<Id, Post>,
    comments: map<Id, Comment>,
    follows: map<Id, Follow>,
    nextId: Id)

  /** A write that added a row: the new store and the row as stored. */
  datatype Created<T> = Created(store: Store, row: T)

  const UniqueUserFollowing := "unique_user_following"
  const PreventSelfFollow := "prevent_self_follow"
  const UniqueSlug := "unique_slug"
  const ForeignKey := "foreign_key"

  // ---------------------------------------------------------------------
  // Constraints

  /** Every row sits under its own id, and every id is below `nextId`. */
  predicate WellKeyed(s: Store) {
    && (forall k :: k in s.groups ==> k < s.nextId && s.groups[k].id == k)
    && (forall k :: k in s.posts ==> k < s.nextId && s.posts[k].id == k)
    && (forall k :: k in s.comments ==> k < s.nextId && s.comments[k].id == k)
    && (forall k :: k in s.follows ==> k < s.nextId && s.follows[k].id == k)
  }

  predicate GroupRef(s: Store, group: Option<Id>) {
    group.Some? ==> group.value in s.groups
  }

  /** Every foreign key names an existing row. */
  predicate ForeignKeys(s: Store) {
    && (forall k :: k in s.posts ==> s.posts[k].author in s.users && GroupRef(s, s.posts[k].group))
    && (forall k :: k in s.comments ==> s.comments[k].author in s.users && s.comments[k].post in s.posts)
    && (forall k :: k in s.follows ==> s.follows[k].user in s.users && s.follows[k].following in s.users)
  }

  /** The check constraint `prevent_self_follow`. */
  predicate NoSelfFollow(s: Store) {
    forall k :: k in s.follows ==> s.follows[k].user != s.follows[k].following
  }

  /** The unique constraint `unique_user_following`. */
  predicate UniqueFollowPairs(s: Store) {
    forall a, b ::
      a in s.follows && b in s.follows
      && s.follows[a].user == s.follows[b].user
      && s.follows[a].following == s.follows[b].following
      ==> a == b
  }

  /** The `unique=True` on the group slug. */
  predicate UniqueSlugs(s: Store) {
    forall a, b :: a in s.groups && b in s.groups && s.groups[a].slug == s.groups[b].slug ==> a == b
  }

  /** What the database guarantees of every state it is in. */
  predicate Valid(s: Store) {
    && WellKeyed(s)
    && ForeignKeys(s)
    && NoSelfFollow(s)
    && UniqueFollowPairs(s)
    && UniqueSlugs(s)
  }

  predicate Follows(s: Store, user: Username, target: Username) {
    exists k :: k in s.follows && s.follows[k].user == user && s.follows[k].following == target
  }

  predicate SlugTaken(s: Store, slug: string) {
    exists k :: k in s.groups && s.groups[k].slug == slug
  }

  // ---------------------------------------------------------------------
  // Inserts and updates

  /** Adds a group (groups are created by administrators only). */
  function InsertGroup(s: Store, title: string, slug: string, description: string): (r: Result<Created<Group>, Error>)
    requires Valid(s)
    ensures r.Failure? <==> SlugTaken(s, slug)
    ensures r.Failure? ==> r.error == IntegrityError(UniqueSlug)
    ensures r.Success? ==>
      var g := r.value.row;
      && g.id !in s.groups
      && g == Group(g.id, title, slug, description)
      && r.value.store.groups == s.groups[g.id := g]
      && r.value.store.(groups := s.groups, nextId := s.nextId) == s
      && Valid(r.value.store)
  {
    if SlugTaken(s, slug) then Failure(IntegrityError(UniqueSlug))
    else
      var g := Group(s.nextId, title, slug, description);
      Success(Created(s.(groups := s.groups[g.id := g], nextId := s.nextId + 1), g))
  }

  /** Adds a post; its author and group must exist. */
  function InsertPost(s: Store, author: Username, text: string, image: Option<string>, group: Option<Id>, now: nat)
    : (r: Result<Created<Post>, Error>)
    requires Valid(s)
    ensures r.Failure? <==> author !in s.users || !GroupRef(s, group)
    ensures r.Failure? ==> r.error == IntegrityError(ForeignKey)
    ensures r.Success? ==>
      var p := r.value.row;
      && p.id !in s.posts
      && p == Post(p.id, text, now, author, image, group)
      && r.value.store.posts == s.posts[p.id := p]
      && r.value.store.(posts := s.posts, nextId := s.nextId) == s
      && Valid(r.value.store)
  {
    if author !in s.users || !GroupRef(s, group) then Failure(IntegrityError(ForeignKey))
    else
      var p := Post(s.nextId, text, now, author, image, group);
      Success(Created(s.(posts := s.posts[p.id := p], nextId := s.nextId + 1), p))
  }

  /** Saves new text, image and group on an existing post; its id, author and
      publication date are never written. */
  function SavePost(s: Store, id: Id, text: string, image: Option<string>, group: Option<Id>)
    : (r: Result<Created<Post>, Error>)
    requires Valid(s) && id in s.posts
    ensures r.Failure? <==> !GroupRef(s, group)
    ensures r.Failure? ==> r.error == IntegrityError(ForeignKey)
    ensures r.Success? ==>
      var p := r.value.row;
      && p == s.posts[id].(text := text, image := image, group := group)
      && r.value.store.posts == s.posts[id := p]
      && r.value.store.(posts := s.posts) == s
      && Valid(r.value.store)
  {
    if !GroupRef(s, group) then Failure(IntegrityError(ForeignKey))
    else
      var p := s.posts[id].(text := text, image := image, group := group);
      Success(Created(s.(posts := s.posts[id := p]), p))
  }

  /** Adds a comment; its author and post must exist. */
  function InsertComment(s: Store, author: Username, post: Id, text: string, now: nat)
    : (r: Result<Created<Comment>, Error>)
    requires Valid(s)
    ensures r.Failure? <==> author !in s.users || post !in s.posts
    ensures r.Failure? ==> r.error == IntegrityError(ForeignKey)
    ensures r.Success? ==>
      var c := r.value.row;
      && c.id !in s.comments
      && c == Comment(c.id, author, post, text, now)
      && r.value.store.comments == s.comments[c.id := c]
      && r.value.store.(comments := s.comments, nextId := s.nextId) == s
      && Valid(r.value.store)
  {
    if author !in s.users || post !in s.posts then Failure(IntegrityError(ForeignKey))
    else
      var c := Comment(s.nextId, author, post, text, now);
      Success(Created(s.(comments := s.comments[c.id := c], nextId := s.nextId + 1), c))
  }

  /** Saves new text on an existing comment; author, post and creation time
      are never written. */
  function SaveComment(s: Store, id: Id, text: string): (r: Created<Comment>)
    requires Valid(s) && id in s.comments
    ensures r.row == s.comments[id].(text := text)
    ensures r.store.comments == s.comments[id := r.row]
    ensures r.store.(comments := s.comments) == s
    ensures Valid(r.store)
  {
    var c := s.comments[id].(text := text);
    Created(s.(comments := s.comments[id := c]), c)
  }

  /** Adds a follow. Besides the foreign keys, the check constraint refuses a
      self-follow and the unique constraint refuses a second row for a pair. */
  function InsertFollow(s: Store, user: Username, following: Username): (r: Result<Created<Follow>, Error>)
    requires Valid(s)
    ensures r.Success? <==> user in s.users && following in s.users && user != following && !Follows(s, user, following)
    ensures user !in s.users || following !in s.users ==> r == Failure(IntegrityError(ForeignKey))
    ensures r.Failure? && user in s.users && following in s.users ==>
      r.error == (if user == following then IntegrityError(PreventSelfFollow) else IntegrityError(UniqueUserFollowing))
    ensures r.Success? ==>
      var f := r.value.row;
      && f.id !in s.follows
      && f == Follow(f.id, user, following)
      && r.value.store.follows == s.follows[f.id := f]
      && r.value.store.(follows := s.follows, nextId := s.nextId) == s
      && Valid(r.value.store)
  {
    if user !in s.users || following !in s.users then Failure(IntegrityError(ForeignKey))
    else if user == following then Failure(IntegrityError(PreventSelfFollow))
    else if Follows(s, user, following) then Failure(IntegrityError(UniqueUserFollowing))
    else
      var f := Follow(s.nextId, user, following);
      Success(Created(s.(follows := s.follows[f.id := f], nextId := s.nextId + 1), f))
  }

  // ---------------------------------------------------------------------
  // Deletes

  /** Deletes a post; its comments go with it (`on_delete=CASCADE`). */
  function DeletePost(s: Store, id: Id): (r: Store)
    requires Valid(s)
    ensures r.posts == s.posts - {id}
    ensures forall k :: k in r.comments ==> r.comments[k].post != id
    ensures forall k :: k in s.comments ==> (k in r.comments <==> s.comments[k].post != id)
    ensures forall k :: k in r.comments ==> k in s.comments && r.comments[k] == s.comments[k]
    ensures r.(posts := s.posts, comments := s.comments) == s
    ensures Valid(r)
  {
    s.(posts := s.posts - {id},
       comments := map k | k in s.comments && s.comments[k].post != id :: s.comments[k])
  }

  function DeleteComment(s: Store, id: Id): (r: Store)
    requires Valid(s)
    ensures r.comments == s.comments - {id}
    ensures r.(comments := s.comments) == s
    ensures Valid(r)
  {
    s.(comments := s.comments - {id})
  }

  function DeleteFollow(s: Store, id: Id): (r: Store)
    requires Valid(s)
    ensures r.follows == s.follows - {id}
    ensures r.(follows := s.follows) == s
    ensures Valid(r)
  {
    s.(follows := s.follows - {id})
  }

  /** A post with its group reference cleared if it named `group`. */
  function Ungroup(p: Post, group: Id): Post {
    if p.group == Some(group) then p.(group := None) else p
  }

  /** Deletes a group; posts in it stay, with their group set to null
      (`on_delete=SET_NULL`). */
  function DeleteGroup(s: Store, id: Id): (r: Store)
    requires Valid(s)
    ensures id !in r.groups && r.groups == s.groups - {id}
    ensures r.posts.Keys == s.posts.Keys
    ensures forall k :: k in s.posts ==>
      && r.posts[k].group == (if s.posts[k].group == Some(id) then None else s.posts[k].group)
      && r.posts[k].(group := s.posts[k].group) == s.posts[k]
    ensures r.(groups := s.groups, posts := s.posts) == s
    ensures Valid(r)
  {
    s.(groups := s.groups - {id},
       posts := map k | k in s.posts :: Ungroup(s.posts[k], id))
  }

  /** Deletes a user and, by cascade, their posts, the comments on those
      posts, their comments, and every follow in which they take part. */
  function DeleteUser(s: Store, u: Username): (r: Store)
    requires Valid(s)
    ensures r.users == s.users - {u}
    ensures forall k :: k in r.posts <==> k in s.posts && s.posts[k].author != u
    ensures forall k :: k in r.comments <==>
      k in s.comments && s.comments[k].author != u && s.posts[s.comments[k].post].author != u
    ensures forall k :: k in r.follows <==>
      k in s.follows && s.follows[k].user != u && s.follows[k].following != u
    ensures forall k :: k in r.posts ==> r.posts[k] == s.posts[k]
    ensures forall k :: k in r.comments ==> r.comments[k] == s.comments[k]
    ensures forall k :: k in r.follows ==> r.follows[k] == s.follows[k]
    ensures r.groups == s.groups && r.nextId == s.nextId
    ensures Valid(r)
  {
    var posts := map k | k in s.posts && s.posts[k].author != u :: s.posts[k];
    s.(users := s.users - {u},
       posts := posts,
       comments := map k | k in s.comments && s.comments[k].author != u && s.comments[k].post in posts
                         :: s.comments[k],
       follows := map k | k in s.follows && s.follows[k].user != u && s.follows[k].following != u
                        :: s.follows[k])
  }

  // ---------------------------------------------------------------------
  // Default orders (the `ordering` of each model's Meta)

  /** Posts: newest `pubDate` first, then ascending id. */
  predicate PostLe(a: Post, b: Post) {
    a.pubDate > b.pubDate || (a.pubDate == b.pubDate && a.id <= b.id)
  }

  /** Comments: newest `created` first, then ascending id. */
  predicate CommentLe(a: Comment, b: Comment) {
    a.created > b.created || (a.created == b.created && a.id <= b.id)
  }

  /** Groups: ascending title, then ascending id. */
  predicate GroupLe(a: Group, b: Group) {
    StrLt(a.title, b.title) || (a.title == b.title && a.id <= b.id)
  }

  /** Follows: ascending follower username, then followed username, then id. */
  predicate FollowLe(a: Follow, b: Follow) {
    || StrLt(a.user, b.user)
    || (a.user == b.user && (StrLt(a.following, b.following) || (a.following == b.following && a.id <= b.id)))
  }

  /** Each default order is total and transitive, and two rows it cannot
      tell apart have the same id: any two different rows of a table are
      ordered strictly. */
  lemma DefaultOrdersAreTotal()
    ensures TotalPreorder(PostLe) && TotalPreorder(CommentLe)
    ensures TotalPreorder(GroupLe) && TotalPreorder(FollowLe)
    ensures forall a, b :: PostLe(a, b) && PostLe(b, a) ==> a.id == b.id
    ensures forall a, b :: CommentLe(a, b) && CommentLe(b, a) ==> a.id == b.id
    ensures forall a, b :: GroupLe(a, b) && GroupLe(b, a) ==> a.id == b.id
    ensures forall a, b :: FollowLe(a, b) && FollowLe(b, a) ==> a.id == b.id
  {
    StrOrder();
  }

  // ---------------------------------------------------------------------
  // Listings

  /** The rows of `m` whose key is below `n`, in ascending key order. Each
      row carries its own key (`key`), so no row is listed twice. */
  function Rows<V(!new,==)>(m: map<Id, V>, n: nat, key: V -> Id): (r: seq<V>)
    requires forall k :: k in m ==> key(m[k]) == k
    ensures forall i :: 0 <= i < |r| ==> r[i] in m.Values && key(r[i]) < n
    ensures forall k :: k in m && k < n ==> m[k] in r
    ensures NoDuplicates(r)
  {
    if n == 0 then []
    else
      var prefix := Rows(m, n - 1, key);
      if n - 1 in m then
        assert m[n - 1] !in multiset(prefix);
        prefix + [m[n - 1]]
      else prefix
  }

  /** The rows of a table that `keep` accepts, each once, sorted by `le`. */
  function Select<V(!new,==)>(m: map<Id, V>, n: nat, key: V -> Id, keep: V -> bool, le: (V, V) -> bool): (r: seq<V>)
    requires forall k :: k in m ==> k < n && key(m[k]) == k
    ensures forall v :: v in r <==> v in m.Values && keep(v)
    ensures NoDuplicates(r)
    ensures TotalPreorder(le) ==> SortedBy(r, le)
  {
    var all := Rows(m, n, key);
    var rows := Filter(all, keep);
    var r := SortBy(rows, le);
    SortBySorted(rows, le);
    assert forall v :: v in r <==> v in rows by {
      forall v ensures v in r <==> v in rows {
        assert v in r <==> v in multiset(r);
        assert v in rows <==> v in multiset(rows);
      }
    }
    assert forall v :: multiset(r)[v] <= multiset(all)[v];
    r
  }

  /** The posts `keep` accepts, in the default post order. */
  function OrderedPosts(s: Store, keep: Post -> bool): (r: seq<Post>)
    requires Valid(s)
    ensures forall p :: p in r <==> p in s.posts.Values && keep(p)
    ensures NoDuplicates(r)
    ensures SortedBy(r, PostLe)
  {
    DefaultOrdersAreTotal();
    Select(s.posts, s.nextId, (p: Post) => p.id, keep, PostLe)
  }

  function OrderedComments(s: Store, keep: Comment -> bool): (r: seq<Comment>)
    requires Valid(s)
    ensures forall c :: c in r <==> c in s.comments.Values && keep(c)
    ensures NoDuplicates(r)
    ensures SortedBy(r, CommentLe)
  {
    DefaultOrdersAreTotal();
    Select(s.comments, s.nextId, (c: Comment) => c.id, keep, CommentLe)
  }

  function OrderedGroups(s: Store): (r: seq<Group>)
    requires Valid(s)
    ensures forall g :: g in r <==> g in s.groups.Values
    ensures NoDuplicates(r)
    ensures SortedBy(r, GroupLe)
  {
    DefaultOrdersAreTotal();
    Select(s.groups, s.nextId, (g: Group) => g.id, _ => true, GroupLe)
  }

  function OrderedFollows(s: Store, keep: Follow -> bool): (r: seq<Follow>)
    requires Valid(s)
    ensures forall f :: f in r <==> f in s.follows.Values && keep(f)
    ensures NoDuplicates(r)
    ensures SortedBy(r, FollowLe)
  {
    DefaultOrdersAreTotal();
    Select(s.follows, s.nextId, (f: Follow) => f.id, keep, FollowLe)
  }
}

=== FILE: ordering.dfy ===
/** Orders, sorting, filtering and slicing: the sequence operations the
    listings are built from. */
module Ordering {

  /** `le` relates every pair one way or the other and is transitive, so a
      sequence sorted by it has every pair in order. */
  ghost predicate TotalPreorder<T(!new)>(le: (T, T) -> bool) {
    && (forall a, b :: le(a, b) || le(b, a))
    && (forall a, b, c :: le(a, b) && le(b, c) ==> le(a, c))
  }

  ghost predicate SortedBy<T>(s: seq<T>, le: (T, T) -> bool) {
    forall i, j :: 0 <= i < j < |s| ==> le(s[i], s[j])
  }

  /** Inserts `x` before the first element it is not after. */
  function InsertBy<T>(x: T, s: seq<T>, le: (T, T) -> bool): (r: seq<T>)
    ensures multiset(r) == multiset(s) + multiset{x}
  {
    if |s| == 0 then [x]
    else if le(x, s[0]) then [x] + s
    else
      assert s == [s[0]] + s[1..];
      [s[0]] + InsertBy(x, s[1..], le)
  }

  /** Insertion sort by `le`: a permutation of `s`. */
  function SortBy<T>(s: seq<T>, le: (T, T) -> bool): (r: seq<T>)
    ensures multiset(r) == multiset(s)
  {
    if |s| == 0 then []
    else
      assert s == [s[0]] + s[1..];
      InsertBy(s[0], SortBy(s[1..], le), le)
  }

  lemma {:induction false} InsertBySorted<T(!new)>(x: T, s: seq<T>, le: (T, T) -> bool)
    requires TotalPreorder(le)
    requires SortedBy(s, le)
    ensures SortedBy(InsertBy(x, s, le), le)
  {
    if |s| == 0 {
    } else if le(x, s[0]) {
      var r := [x] + s;
      forall i, j | 0 <= i < j < |r| ensures le(r[i], r[j]) {
        if i == 0 {
          if j > 1 {
            assert le(s[0], s[j - 1]);
          }
        } else {
          assert r[i] == s[i - 1] && r[j] == s[j - 1];
        }
      }
    } else {
      var tail := s[1..];
      assert SortedBy(tail, le) by {
        forall i, j | 0 <= i < j < |tail| ensures le(tail[i], tail[j]) {
          assert tail[i] == s[i + 1] && tail[j] == s[j + 1];
        }
      }
      InsertBySorted(x, tail, le);
      var t := InsertBy(x, tail, le);
      assert le(s[0], x);
      forall y | y in t ensures le(s[0], y) {
        assert y in multiset(t);
        if y != x {
          assert y in multiset(tail);
          var k :| 0 <= k < |tail| && tail[k] == y;
          assert tail[k] == s[k + 1];
        }
      }
      var r := [s[0]] + t;
      forall i, j | 0 <= i < j < |r| ensures le(r[i], r[j]) {
        if i == 0 {
          assert r[j] == t[j - 1] && t[j - 1] in t;
        } else {
          assert r[i] == t[i - 1] && r[j] == t[j - 1];
        }
      }
    }
  }

  lemma {:induction false} SortBySorted<T(!new)>(s: seq<T>, le: (T, T) -> bool)
    ensures TotalPreorder(le) ==> SortedBy(SortBy(s, le), le)
  {
    if |s| > 0 && TotalPreorder(le) {
      SortBySorted(s[1..], le);
      InsertBySorted(s[0], SortBy(s[1..], le), le);
    }
  }

  /** No element occurs in `s` more than once. */
  ghost predicate NoDuplicates<T(!new)>(s: seq<T>) {
    forall x :: multiset(s)[x] <= 1
  }

  /** Without duplicates, different positions hold different elements. */
  lemma NoDuplicatesDistinct<T(!new)>(s: seq<T>)
    requires NoDuplicates(s)
    ensures forall i, j :: 0 <= i < j < |s| ==> s[i] != s[j]
  {
    forall i, j | 0 <= i < j < |s| ensures s[i] != s[j] {
      assert s == s[..j] + s[j..];
      assert multiset(s) == multiset(s[..j]) + multiset(s[j..]);
      assert s[..j][i] == s[i] && s[j..][0] == s[j];
      assert multiset(s[..j])[s[i]] >= 1 && multiset(s[j..])[s[j]] >= 1;
      assert multiset(s)[s[i]] <= 1;
    }
  }

  /** The elements of `s` that `keep` accepts, in their order in `s`. */
  function Filter<T(!new)>(s: seq<T>, keep: T -> bool): (r: seq<T>)
    ensures forall x :: x in r <==> x in s && keep(x)
    ensures multiset(r) <= multiset(s)
    ensures |r| <= |s|
  {
    if |s| == 0 then []
    else
      assert s == [s[0]] + s[1..];
      (if keep(s[0]) then [s[0]] else []) + Filter(s[1..], keep)
  }

  function Min(a: nat, b: nat): nat {
    if a <= b then a else b
  }

  /** The slice `s[offset:offset + limit]` with the clamping of a Python
      slice: an offset past the end gives the empty sequence. */
  function Page<T>(s: seq<T>, offset: nat, limit: nat): (r: seq<T>)
    ensures |r| == if offset >= |s| then 0 else Min(limit, |s| - offset)
    ensures forall i :: 0 <= i < |r| ==> offset + i < |s| && r[i] == s[offset + i]
  {
    if offset >= |s| then [] else s[offset..offset + Min(limit, |s| - offset)]
  }

  /** A page holds only elements of the sequence, in the order they have
      there, and repeats none that the sequence does not repeat. */
  lemma PageOfSorted<T(!new)>(s: seq<T>, offset: nat, limit: nat, le: (T, T) -> bool)
    ensures forall x :: x in Page(s, offset, limit) ==> x in s
    ensures SortedBy(s, le) ==> SortedBy(Page(s, offset, limit), le)
    ensures NoDuplicates(s) ==> NoDuplicates(Page(s, offset, limit))
  {
    var r := Page(s, offset, limit);
    if offset < |s| {
      var end := offset + Min(limit, |s| - offset);
      assert s == s[..offset] + r + s[end..];
      assert multiset(s) == multiset(s[..offset]) + multiset(r) + multiset(s[end..]);
      if NoDuplicates(s) {
        forall x ensures multiset(r)[x] <= 1 {
          assert multiset(s)[x] <= 1;
        }
      }
    }
    forall x | x in r ensures x in s {
      var i :| 0 <= i < |r| && r[i] == x;
      assert s[offset + i] in s;
    }
    if SortedBy(s, le) {
      forall i, j | 0 <= i < j < |r| ensures le(r[i], r[j]) {
        assert r[i] == s[offset + i] && r[j] == s[offset + j];
      }
    }
  }

  /** `t` occurs in `s` as a contiguous run of characters. */
  predicate Contains(s: string, t: string) {
    t <= s || (|s| > 0 && Contains(s[1..], t))
  }

  /** `t` occurs in `s` starting at index `i`. */
  ghost predicate OccursAt(s: string, t: string, i: int) {
    0 <= i && i + |t| <= |s| && s[i..i + |t|] == t
  }

  lemma {:induction false} OccursImpliesContains(s: string, t: string, i: int)
    requires OccursAt(s, t, i)
    ensures Contains(s, t)
    decreases i
  {
    if i == 0 {
      assert s[..|t|] == t;
    } else {
      assert s[1..][i - 1..i - 1 + |t|] == s[i..i + |t|];
      OccursImpliesContains(s[1..], t, i - 1);
    }
  }

  lemma {:induction false} ContainsImpliesOccurs(s: string, t: string)
    requires Contains(s, t)
    ensures exists i :: OccursAt(s, t, i)
  {
    if t <= s {
      assert s[0..|t|] == t;
      assert OccursAt(s, t, 0);
    } else {
      ContainsImpliesOccurs(s[1..], t);
      var i :| OccursAt(s[1..], t, i);
      assert s[1..][i..i + |t|] == s[i + 1..i + 1 + |t|];
      assert OccursAt(s, t, i + 1);
    }
  }

  /** `Contains` agrees with the index-based definition of a substring. */
  lemma ContainsIffOccurs(s: string, t: string)
    ensures Contains(s, t) <==> exists i :: OccursAt(s, t, i)
  {
    if Contains(s, t) {
      ContainsImpliesOccurs(s, t);
    }
    if i :| OccursAt(s, t, i) {
      OccursImpliesContains(s, t, i);
    }
  }

  /** Lexicographic order on strings by character code: `a` is a prefix of
      `b`, or `a` is smaller at the first position where they differ. */
  predicate StrLe(a: string, b: string) {
    |a| == 0 || (|b| > 0 && (a[0] < b[0] || (a[0] == b[0] && StrLe(a[1..], b[1..]))))
  }

  predicate StrLt(a: string, b: string) {
    StrLe(a, b) && a != b
  }

  lemma {:induction false} StrLeTotal(a: string, b: string)
    ensures StrLe(a, b) || StrLe(b, a)
  {
    if |a| > 0 && |b| > 0 && a[0] == b[0] {
      StrLeTotal(a[1..], b[1..]);
    }
  }

  lemma {:induction false} StrLeAntisymmetric(a: string, b: string)
    requires StrLe(a, b) && StrLe(b, a)
    ensures a == b
  {
    if |a| > 0 {
      StrLeAntisymmetric(a[1..], b[1..]);
      assert a == [a[0]] + a[1..] && b == [b[0]] + b[1..];
    }
  }

  lemma {:induction false} StrLeTransitive(a: string, b: string, c: string)
    requires StrLe(a, b) && StrLe(b, c)
    ensures StrLe(a, c)
  {
    if |a| > 0 && a[0] == b[0] && b[0] == c[0] {
      StrLeTransitive(a[1..], b[1..], c[1..]);
    }
  }

  /** The facts about `StrLe` and `StrLt` that composite orders rely on. */
  lemma StrOrder()
    ensures forall a, b :: StrLe(a, b) || StrLe(b, a)
    ensures forall a, b :: StrLe(a, b) && StrLe(b, a) ==> a == b
    ensures forall a, b, c :: StrLe(a, b) && StrLe(b, c) ==> StrLe(a, c)
  {
    forall a, b ensures StrLe(a, b) || StrLe(b, a) {
      StrLeTotal(a, b);
    }
    forall a, b | StrLe(a, b) && StrLe(b, a) ensures a == b {
      StrLeAntisymmetric(a, b);
    }
    forall a, b, c | StrLe(a, b) && StrLe(b, c) ensures StrLe(a, c) {
      StrLeTransitive(a, b, c);
    }
  }
}

=== FILE: permissions.dfy ===
/** The object-level permission shared by every owned resource. */
module Permissions {
  import opened Models
  import opened Requests

  /** GET, HEAD and OPTIONS: the methods that cannot change anything. */
  predicate IsSafe(m: Method) {
    m == GET || m == HEAD || m == OPTIONS
  }

  /** `IsAuthorOrReadOnly.has_object_permission`: a safe method on anything,
      any method on what the actor wrote. */
  function HasObjectPermission(m: Method, actor: Actor, author: Username): (granted: bool)
    ensures IsSafe(m) ==> granted
    ensures actor == User(author) ==> granted
    ensures !IsSafe(m) && actor != User(author) ==> !granted
    ensures actor.Anonymous? ==> (granted <==> IsSafe(m))
  {
    IsSafe(m) || actor == User(author)
  }
}

=== FILE: posts_serializers.dfy ===
/** Request-body validation of the unrouted `posts` revision. Its comment
    serializer checks a body as the routed API's does
    (`ApiSerializers.ValidateComment`). Its post serializer declares the image
    field itself, without allowing null, and its follow serializer checks in
    another order and reports its refusals under no single field. */
module PostsSerializers {
  import opened Wrappers
  import opened Errors
  import opened Models
  import opened Requests
  import ApiSerializers

  const SelfFollowMessage := "Нельзя подписаться на самого себя!"
  const AlreadySubscribedMessage := "Вы уже подписаны на этого пользователя."

  /** The image field is optional but may not be null: leaving it out is
      fine, sending null is not. */
  predicate ImageAccepted(image: Field<Option<string>>) {
    image != Given(None)
  }

  function ImageProblems(image: Field<Option<string>>): (r: map<string, Problem>)
    ensures r.Keys <= {"image"}
    ensures "image" in r <==> !ImageAccepted(image)
  {
    if ImageAccepted(image) then map[] else map["image" := Null]
  }

  /** Validates a post body of this revision: the routed API's checks on
      text and group, and the refusal of a null image. Every failing field is
      reported. */
  function ValidatePost(s: Store, req: PostRequest, partial: bool, base: ApiSerializers.PostFields)
    : (r: Result<ApiSerializers.PostFields, Error>)
    ensures r.Success? <==>
      ApiSerializers.TextAccepted(req.text, partial) && ApiSerializers.GroupAccepted(s, req.group)
      && ImageAccepted(req.image)
    ensures r.Success? ==>
      && r.value.text == ApiSerializers.Pick(req.text, base.text)
      && r.value.image == ApiSerializers.Pick(req.image, base.image)
      && r.value.group == ApiSerializers.Pick(req.group, base.group)
      && (req.text.Given? ==> r.value.text != "")
      && (req.image.Given? ==> r.value.image.Some?)
    ensures r.Failure? ==>
      && r.error.ValidationError?
      && ("text" in r.error.problems <==> !ApiSerializers.TextAccepted(req.text, partial))
      && ("group" in r.error.problems <==> !ApiSerializers.GroupAccepted(s, req.group))
      && ("image" in r.error.problems <==> !ImageAccepted(req.image))
  {
    var problems := ApiSerializers.TextProblems(req.text, partial) + ApiSerializers.GroupProblems(s, req.group)
      + ImageProblems(req.image);
    if problems != map[] then Failure(ValidationError(problems))
    else
      assert "text" !in problems && "group" !in problems && "image" !in problems;
      Success(ApiSerializers.PostFields(
        ApiSerializers.Pick(req.text, base.text),
        ApiSerializers.Pick(req.image, base.image),
        ApiSerializers.Pick(req.group, base.group)))
  }

  /** On a body that does not send a null image, both revisions validate a
      post alike: the same accepted fields, or the same reported problems. */
  lemma PostValidationsAgree(s: Store, req: PostRequest, partial: bool, base: ApiSerializers.PostFields)
    requires ImageAccepted(req.image)
    ensures ValidatePost(s, req, partial, base) == ApiSerializers.ValidatePost(s, req, partial, base)
  {
    assert ImageProblems(req.image) == map[];
    var p := ApiSerializers.TextProblems(req.text, partial) + ApiSerializers.GroupProblems(s, req.group);
    assert p + ImageProblems(req.image) == p;
  }

  /** The follow serializer of this revision: the `following` lookup, then the
      unique-together validator on (requester, following), then `validate`,
      which refuses a self-follow. Both validator errors belong to no single
      field. */
  function ValidateFollow(s: Store, user: Username, req: FollowRequest): (r: Result<Username, Error>)
    ensures r.Success? <==>
      req.following.Given? && req.following.value in s.users
      && user != req.following.value && !Follows(s, user, req.following.value)
    ensures r.Success? ==> r.value == req.following.value
    ensures req.following.Given? && req.following.value !in s.users ==>
      r == Failure(FieldError("following", NoSuchObject))
    ensures req.following.Given? && req.following.value in s.users && Follows(s, user, req.following.value) ==>
      r == Failure(FieldError(NonFieldErrors, Message(AlreadySubscribedMessage)))
    ensures (req.following.Given? && req.following.value in s.users
             && !Follows(s, user, req.following.value) && user == req.following.value) ==>
      r == Failure(FieldError(NonFieldErrors, Message(SelfFollowMessage)))
  {
    var name :- ApiSerializers.ResolveFollowing(s, req.following);
    if Follows(s, user, name) then Failure(FieldError(NonFieldErrors, Message(AlreadySubscribedMessage)))
    else if user == name then Failure(FieldError(NonFieldErrors, Message(SelfFollowMessage)))
    else Success(name)
  }

  /** The problem reported for `field` by a one-problem validation error. */
  function Reported(r: Result<Username, Error>, field: string): Option<Problem> {
    if r.Failure? && r.error.ValidationError? && field in r.error.problems
    then Some(r.error.problems[field])
    else None
  }

  /** On a consistent store and for an existing requester, the two revisions
      accept exactly the same follows and refuse every other one for the same
      reason, although they check in different orders: the routed API checks
      self before duplicate, this revision duplicate before self. They agree
      because the check constraint leaves no self-follow row to be a
      duplicate of. */
  lemma FollowValidationsAgree(s: Store, user: Username, req: FollowRequest)
    requires Valid(s) && user in s.users
    ensures ApiSerializers.ValidateFollow(s, user, req) == ValidateFollow(s, user, req)
      || (Reported(ApiSerializers.ValidateFollow(s, user, req), "following")
            == Some(Message(ApiSerializers.SelfFollowMessage))
          && Reported(ValidateFollow(s, user, req), NonFieldErrors) == Some(Message(SelfFollowMessage)))
      || (Reported(ApiSerializers.ValidateFollow(s, user, req), "following")
            == Some(Message(ApiSerializers.AlreadySubscribedMessage))
          && Reported(ValidateFollow(s, user, req), NonFieldErrors) == Some(Message(AlreadySubscribedMessage)))
  {
    assert !Follows(s, user, user);
  }
}

=== FILE: posts_views.dfy ===
/** The resource services of the `posts` revision, which the router does not
    expose. Unlike the routed API it lets anonymous callers read posts,
    comments and groups, filters and searches the post list, and paginates
    it only when asked to. Its ownership check is `IsOwnerOrReadOnly`, taken
    to be the same test as `Permissions.HasObjectPermission`. */
module PostsViews {
  import opened Wrappers
  import opened Errors
  import opened Ordering
  import opened Models
  import opened Requests
  import opened Permissions
  import ApiSerializers
  import PostsSerializers
  import ApiViews

  /** The message of the unhandled `Post.DoesNotExist`. */
  const PostDoesNotExist := "Post matching query does not exist."

  // ---------------------------------------------------------------------
  // Posts

  /** The query parameters of the post list: `group`, `search`, and the
      integer values of `limit` and `offset` when they are present. */
  datatype PostQuery = PostQuery(group: Option<Id>, search: Option<string>, limit: Option<int>, offset: Option<int>)

  /** The group filter keeps posts of the named group only; the search looks
      in the post text only. */
  predicate PostMatches(q: PostQuery, p: Post) {
    && (q.group.None? || p.group == q.group)
    && (q.search.None? || Contains(p.text, q.search.value))
  }

  /** Every post the filters keep, in the default post order. */
  function Matching(s: Store, q: PostQuery): (r: seq<Post>)
    requires Valid(s)
    ensures forall p :: p in r <==> p in s.posts.Values && PostMatches(q, p)
    ensures NoDuplicates(r)
    ensures SortedBy(r, PostLe)
  {
    OrderedPosts(s, (p: Post) => PostMatches(q, p))
  }

  /** A positive `limit` is used as given; anything else falls back to the
      configured page size, which may be unset. */
  function PageLimit(q: PostQuery, pageSize: Option<nat>): Option<nat> {
    if q.limit.Some? && q.limit.value > 0 then Some(q.limit.value) else pageSize
  }

  /** A non-negative `offset` is used as given; anything else means 0. */
  function PageOffset(q: PostQuery): nat {
    if q.offset.Some? && q.offset.value >= 0 then q.offset.value else 0
  }

  predicate Paginated(q: PostQuery, pageSize: Option<nat>) {
    (q.limit.Some? || q.offset.Some?) && PageLimit(q, pageSize).Some?
  }

  /** `PostViewSet.list`. Anyone may call it. Without `limit` and `offset`
      it returns every matching post; with either, a slice of that same
      sequence, unless no limit can be determined. */
  function ListPosts(s: Store, actor: Actor, q: PostQuery, pageSize: Option<nat>): (r: Result<seq<Post>, Error>)
    requires Valid(s)
    ensures r.Success? <==> GroupRef(s, q.group)
    ensures r.Failure? ==> r.error == FieldError("group", NoSuchObject)
    ensures r.Success? && !Paginated(q, pageSize) ==> r.value == Matching(s, q)
    ensures r.Success? && Paginated(q, pageSize) ==>
      var m := Matching(s, q);
      && |r.value| <= PageLimit(q, pageSize).value
      && |r.value| == (if PageOffset(q) >= |m| then 0 else Min(PageLimit(q, pageSize).value, |m| - PageOffset(q)))
      && forall i :: 0 <= i < |r.value| ==> PageOffset(q) + i < |m| && r.value[i] == m[PageOffset(q) + i]
  {
    if !GroupRef(s, q.group) then Failure(FieldError("group", NoSuchObject))
    else
      var all := Matching(s, q);
      if Paginated(q, pageSize) then Success(Page(all, PageOffset(q), PageLimit(q, pageSize).value))
      else Success(all)
  }

  /** Whatever the pagination, a listed post exists, passes the filters, and
      the listing is in the default post order. */
  lemma ListedPostsMatch(s: Store, actor: Actor, q: PostQuery, pageSize: Option<nat>)
    requires Valid(s)
    requires ListPosts(s, actor, q, pageSize).Success?
    ensures var r := ListPosts(s, actor, q, pageSize).value;
      && (forall p :: p in r ==> p in s.posts.Values && PostMatches(q, p))
      && NoDuplicates(r)
      && SortedBy(r, PostLe)
  {
    if Paginated(q, pageSize) {
      PageOfSorted(Matching(s, q), PageOffset(q), PageLimit(q, pageSize).value, PostLe);
    }
  }

  /** With no query parameters, the list equals the routed API's list. */
  lemma PlainListAgreesWithApi(s: Store, actor: Actor, pageSize: Option<nat>)
    requires Valid(s) && Authenticated(s, actor)
    ensures var r := ListPosts(s, actor, PostQuery(None, None, None, None), pageSize);
      r.Success? && (forall p :: p in r.value <==> p in ApiViews.ListPosts(s, actor).value)
  {
  }

  /** `get_object` on a post route: the list's filters narrow the queryset
      first, so an unknown `group` is refused as on the list, and a post the
      filters drop is a 404 like a missing one. */
  function FindPost(s: Store, q: PostQuery, id: Id): (r: Result<Post, Error>)
    ensures !GroupRef(s, q.group) ==> r == Failure(FieldError("group", NoSuchObject))
    ensures r.Success? <==> GroupRef(s, q.group) && id in s.posts && PostMatches(q, s.posts[id])
    ensures r.Success? ==> r.value == s.posts[id]
    ensures GroupRef(s, q.group) && r.Failure? ==> r.error == NotFound
    ensures q.group.None? && q.search.None? ==> (r.Success? <==> id in s.posts)
  {
    if !GroupRef(s, q.group) then Failure(FieldError("group", NoSuchObject))
    else if id in s.posts && PostMatches(q, s.posts[id]) then Success(s.posts[id])
    else Failure(NotFound)
  }

  function RetrievePost(s: Store, actor: Actor, q: PostQuery, id: Id): (r: Result<Post, Error>)
    requires Valid(s)
    ensures !GroupRef(s, q.group) ==> r == Failure(FieldError("group", NoSuchObject))
    ensures r.Success? <==> GroupRef(s, q.group) && id in s.posts && PostMatches(q, s.posts[id])
    ensures r.Success? ==> r.value == s.posts[id]
    ensures GroupRef(s, q.group) && r.Failure? ==> r.error == NotFound
  {
    FindPost(s, q, id)
  }

  /** Writing needs an identity; the author is the requester. */
  function CreatePost(s: Store, actor: Actor, req: PostRequest, now: nat): (r: Result<Created<Post>, Error>)
    requires Valid(s)
    ensures !Authenticated(s, actor) ==> r == Failure(NotAuthenticated)
    ensures Authenticated(s, actor)
            && !(ApiSerializers.TextAccepted(req.text, false) && ApiSerializers.GroupAccepted(s, req.group)
                 && PostsSerializers.ImageAccepted(req.image)) ==>
      r == Failure(PostsSerializers.ValidatePost(s, req, false, ApiSerializers.NewPost).error)
    ensures r.Success? <==>
      Authenticated(s, actor) && ApiSerializers.TextAccepted(req.text, false) && ApiSerializers.GroupAccepted(s, req.group)
      && PostsSerializers.ImageAccepted(req.image)
    ensures r.Success? ==>
      var p := r.value.row;
      && actor == User(p.author)
      && p.pubDate == now
      && p.text == req.text.value
      && p.image == ApiSerializers.Pick(req.image, None)
      && p.group == ApiSerializers.Pick(req.group, None)
      && p.id !in s.posts
      && r.value.store.posts == s.posts[p.id := p]
      && r.value.store.(posts := s.posts, nextId := s.nextId) == s
      && Valid(r.value.store)
    ensures r.Failure? ==> !r.error.IntegrityError?
  {
    if !Authenticated(s, actor) then Failure(NotAuthenticated)
    else
      var fields :- PostsSerializers.ValidatePost(s, req, false, ApiSerializers.NewPost);
      InsertPost(s, actor.name, fields.text, fields.image, fields.group, now)
  }

  /** The identity check comes first, then the filtered lookup, then the
      owner check, then validation. */
  function UpdatePost(s: Store, actor: Actor, q: PostQuery, id: Id, req: PostRequest, partial: bool)
    : (r: Result<Created<Post>, Error>)
    requires Valid(s)
    ensures !Authenticated(s, actor) ==> r == Failure(NotAuthenticated)
    ensures Authenticated(s, actor) && !GroupRef(s, q.group) ==> r == Failure(FieldError("group", NoSuchObject))
    ensures Authenticated(s, actor) && GroupRef(s, q.group) && !(id in s.posts && PostMatches(q, s.posts[id])) ==>
      r == Failure(NotFound)
    ensures Authenticated(s, actor) && GroupRef(s, q.group) && id in s.posts && PostMatches(q, s.posts[id])
            && s.posts[id].author != actor.name ==>
      r == Failure(PermissionDenied(DefaultDenied))
    ensures Authenticated(s, actor) && GroupRef(s, q.group) && id in s.posts && PostMatches(q, s.posts[id])
            && s.posts[id].author == actor.name
            && !(ApiSerializers.TextAccepted(req.text, partial) && ApiSerializers.GroupAccepted(s, req.group)
                 && PostsSerializers.ImageAccepted(req.image)) ==>
      r == Failure(PostsSerializers.ValidatePost(s, req, partial, ApiSerializers.FieldsOf(s.posts[id])).error)
    ensures r.Success? <==>
      Authenticated(s, actor) && GroupRef(s, q.group) && id in s.posts && PostMatches(q, s.posts[id])
      && s.posts[id].author == actor.name
      && ApiSerializers.TextAccepted(req.text, partial) && ApiSerializers.GroupAccepted(s, req.group)
      && PostsSerializers.ImageAccepted(req.image)
    ensures r.Success? ==>
      var p := r.value.row;
      && p.id == id && p.author == s.posts[id].author && p.pubDate == s.posts[id].pubDate
      && p.text == ApiSerializers.Pick(req.text, s.posts[id].text)
      && p.image == ApiSerializers.Pick(req.image, s.posts[id].image)
      && p.group == ApiSerializers.Pick(req.group, s.posts[id].group)
      && r.value.store.posts == s.posts[id := p]
      && r.value.store.(posts := s.posts) == s
      && Valid(r.value.store)
    ensures r.Failure? ==> !r.error.IntegrityError?
  {
    if !Authenticated(s, actor) then Failure(NotAuthenticated)
    else
      var post :- FindPost(s, q, id);
      if !HasObjectPermission(UpdateMethod(partial), actor, post.author) then
        Failure(PermissionDenied(DefaultDenied))
      else
        var fields :- PostsSerializers.ValidatePost(s, req, partial, ApiSerializers.FieldsOf(post));
        SavePost(s, id, fields.text, fields.image, fields.group)
  }

  function DestroyPost(s: Store, actor: Actor, q: PostQuery, id: Id): (r: Result<Store, Error>)
    requires Valid(s)
    ensures !Authenticated(s, actor) ==> r == Failure(NotAuthenticated)
    ensures Authenticated(s, actor) && !GroupRef(s, q.group) ==> r == Failure(FieldError("group", NoSuchObject))
    ensures Authenticated(s, actor) && GroupRef(s, q.group) && !(id in s.posts && PostMatches(q, s.posts[id])) ==>
      r == Failure(NotFound)
    ensures Authenticated(s, actor) && GroupRef(s, q.group) && id in s.posts && PostMatches(q, s.posts[id])
            && s.posts[id].author != actor.name ==>
      r == Failure(PermissionDenied(DefaultDenied))
    ensures r.Success? <==>
      Authenticated(s, actor) && GroupRef(s, q.group) && id in s.posts && PostMatches(q, s.posts[id])
      && s.posts[id].author == actor.name
    ensures r.Success? ==>
      && r.value.posts == s.posts - {id}
      && (forall k :: k in r.value.comments <==> k in s.comments && s.comments[k].post != id)
      && (forall k :: k in r.value.comments ==> r.value.comments[k] == s.comments[k])
      && r.value.(posts := s.posts, comments := s.comments) == s
      && Valid(r.value)
    ensures r.Failure? ==> !r.error.IntegrityError?
  {
    if !Authenticated(s, actor) then Failure(NotAuthenticated)
    else
      var post :- FindPost(s, q, id);
      if !HasObjectPermission(DELETE, actor, post.author) then Failure(PermissionDenied(DefaultDenied))
      else Success(DeletePost(s, id))
  }

  // ---------------------------------------------------------------------
  // Comments: the path's post is fetched without a 404 fallback

  /** `Post.objects.get(pk=post_id)`: a missing post is an unhandled
      exception rather than a 404. */
  function GetPost(s: Store, postId: Id): (r: Result<Post, Error>)
    ensures r.Success? <==> postId in s.posts
    ensures r.Success? ==> r.value == s.posts[postId]
    ensures r.Failure? ==> r.error == ServerError(PostDoesNotExist)
  {
    if postId in s.posts then Success(s.posts[postId]) else Failure(ServerError(PostDoesNotExist))
  }

  /** Comment `id` among the comments of the path's post. */
  function GetComment(s: Store, postId: Id, id: Id): (r: Result<Comment, Error>)
    ensures r.Success? <==> postId in s.posts && id in s.comments && s.comments[id].post == postId
    ensures r.Success? ==> r.value == s.comments[id]
    ensures postId !in s.posts ==> r == Failure(ServerError(PostDoesNotExist))
    ensures postId in s.posts && r.Failure? ==> r.error == NotFound
  {
    var _ :- GetPost(s, postId);
    if id in s.comments && s.comments[id].post == postId then Success(s.comments[id]) else Failure(NotFound)
  }

  function ListComments(s: Store, actor: Actor, postId: Id): (r: Result<seq<Comment>, Error>)
    requires Valid(s)
    ensures r.Success? <==> postId in s.posts
    ensures r.Failure? ==> r.error == ServerError(PostDoesNotExist)
    ensures r.Success? ==>
      && (forall c :: c in r.value <==> c in s.comments.Values && c.post == postId)
      && NoDuplicates(r.value)
      && SortedBy(r.value, CommentLe)
  {
    var _ :- GetPost(s, postId);
    Success(OrderedComments(s, (c: Comment) => c.post == postId))
  }

  /** Open to anonymous callers; a missing post fails before a missing
      comment is noticed. */
  function RetrieveComment(s: Store, actor: Actor, postId: Id, id: Id): (r: Result<Comment, Error>)
    requires Valid(s)
    ensures r.Success? <==> postId in s.posts && id in s.comments && s.comments[id].post == postId
    ensures r.Success? ==> r.value == s.comments[id] && r.value in s.comments.Values
    ensures postId !in s.posts ==> r == Failure(ServerError(PostDoesNotExist))
    ensures postId in s.posts && r.Failure? ==> r.error == NotFound
  {
    GetComment(s, postId, id)
  }

  /** The author is the requester and the post the path's post. */
  function CreateComment(s: Store, actor: Actor, postId: Id, req: CommentRequest, now: nat)
    : (r: Result<Created<Comment>, Error>)
    requires Valid(s)
    ensures !Authenticated(s, actor) ==> r == Failure(NotAuthenticated)
    ensures Authenticated(s, actor) && !ApiSerializers.TextAccepted(req.text, false) ==>
      r == Failure(ApiSerializers.ValidateComment(req, false, "").error)
    ensures Authenticated(s, actor) && ApiSerializers.TextAccepted(req.text, false) && postId !in s.posts ==>
      r == Failure(ServerError(PostDoesNotExist))
    ensures r.Success? <==>
      Authenticated(s, actor) && ApiSerializers.TextAccepted(req.text, false) && postId in s.posts
    ensures r.Success? ==>
      var c := r.value.row;
      && actor == User(c.author)
      && c.post == postId
      && c.created == now
      && c.text == req.text.value
      && c.id !in s.comments
      && r.value.store.comments == s.comments[c.id := c]
      && r.value.store.(comments := s.comments, nextId := s.nextId) == s
      && Valid(r.value.store)
    ensures r.Failure? ==> !r.error.IntegrityError?
  {
    if !Authenticated(s, actor) then Failure(NotAuthenticated)
    else
      var text :- ApiSerializers.ValidateComment(req, false, "");
      var post :- GetPost(s, postId);
      InsertComment(s, actor.name, post.id, text, now)
  }

  /** The ownership check runs when the comment is loaded, before the body
      is validated. */
  function UpdateComment(s: Store, actor: Actor, postId: Id, id: Id, req: CommentRequest, partial: bool)
    : (r: Result<Created<Comment>, Error>)
    requires Valid(s)
    ensures !Authenticated(s, actor) ==> r == Failure(NotAuthenticated)
    ensures Authenticated(s, actor) && postId !in s.posts ==> r == Failure(ServerError(PostDoesNotExist))
    ensures Authenticated(s, actor) && postId in s.posts && !(id in s.comments && s.comments[id].post == postId) ==>
      r == Failure(NotFound)
    ensures (Authenticated(s, actor) && postId in s.posts && id in s.comments && s.comments[id].post == postId
             && s.comments[id].author != actor.name) ==>
      r == Failure(PermissionDenied(DefaultDenied))
    ensures (Authenticated(s, actor) && postId in s.posts && id in s.comments && s.comments[id].post == postId
             && s.comments[id].author == actor.name && !ApiSerializers.TextAccepted(req.text, partial)) ==>
      r == Failure(ApiSerializers.ValidateComment(req, partial, s.comments[id].text).error)
    ensures r.Success? <==>
      Authenticated(s, actor) && postId in s.posts && id in s.comments && s.comments[id].post == postId
      && s.comments[id].author == actor.name && ApiSerializers.TextAccepted(req.text, partial)
    ensures r.Success? ==>
      && r.value.row == s.comments[id].(text := ApiSerializers.Pick(req.text, s.comments[id].text))
      && r.value.store.comments == s.comments[id := r.value.row]
      && r.value.store.(comments := s.comments) == s
      && Valid(r.value.store)
    ensures r.Failure? ==> !r.error.IntegrityError?
  {
    if !Authenticated(s, actor) then Failure(NotAuthenticated)
    else
      var c :- GetComment(s, postId, id);
      if !HasObjectPermission(UpdateMethod(partial), actor, c.author) then Failure(PermissionDenied(DefaultDenied))
      else
        var text :- ApiSerializers.ValidateComment(req, partial, c.text);
        Success(SaveComment(s, id, text))
  }

  function DestroyComment(s: Store, actor: Actor, postId: Id, id: Id): (r: Result<Store, Error>)
    requires Valid(s)
    ensures !Authenticated(s, actor) ==> r == Failure(NotAuthenticated)
    ensures Authenticated(s, actor) && postId !in s.posts ==> r == Failure(ServerError(PostDoesNotExist))
    ensures Authenticated(s, actor) && postId in s.posts && !(id in s.comments && s.comments[id].post == postId) ==>
      r == Failure(NotFound)
    ensures (Authenticated(s, actor) && postId in s.posts && id in s.comments && s.comments[id].post == postId
             && s.comments[id].author != actor.name) ==>
      r == Failure(PermissionDenied(DefaultDenied))
    ensures r.Success? <==>
      Authenticated(s, actor) && postId in s.posts && id in s.comments && s.comments[id].post == postId
      && s.comments[id].author == actor.name
    ensures r.Success? ==>
      r.value.comments == s.comments - {id} && r.value.(comments := s.comments) == s && Valid(r.value)
    ensures r.Failure? ==> !r.error.IntegrityError?
  {
    if !Authenticated(s, actor) then Failure(NotAuthenticated)
    else
      var c :- GetComment(s, postId, id);
      if !HasObjectPermission(DELETE, actor, c.author) then Failure(PermissionDenied(DefaultDenied))
      else Success(DeleteComment(s, id))
  }

  // ---------------------------------------------------------------------
  // Groups: read-only, open to anonymous callers

  function ListGroups(s: Store, actor: Actor): (r: seq<Group>)
    requires Valid(s)
    ensures forall g :: g in r <==> g in s.groups.Values
    ensures NoDuplicates(r)
    ensures SortedBy(r, GroupLe)
  {
    OrderedGroups(s)
  }

  function RetrieveGroup(s: Store, actor: Actor, id: Id): (r: Result<Group, Error>)
    requires Valid(s)
    ensures r.Success? <==> id in s.groups
    ensures r.Success? ==> r.value == s.groups[id]
    ensures r.Failure? ==> r.error == NotFound
  {
    if id in s.groups then Success(s.groups[id]) else Failure(NotFound)
  }

  // ---------------------------------------------------------------------
  // Follows: every action needs an identity and sees only its own rows

  /** The search looks in the followed user's name only. */
  predicate FollowSearchHit(search: Option<string>, f: Follow) {
    search.None? || Contains(f.following, search.value)
  }

  function ListFollows(s: Store, actor: Actor, search: Option<string>): (r: Result<seq<Follow>, Error>)
    requires Valid(s)
    ensures r.Success? <==> Authenticated(s, actor)
    ensures r.Failure? ==> r.error == NotAuthenticated
    ensures r.Success? ==>
      && (forall f :: f in r.value <==> f in s.follows.Values && actor == User(f.user) && FollowSearchHit(search, f))
      && NoDuplicates(r.value)
      && SortedBy(r.value, FollowLe)
  {
    if !Authenticated(s, actor) then Failure(NotAuthenticated)
    else Success(OrderedFollows(s, (f: Follow) => f.user == actor.name && FollowSearchHit(search, f)))
  }

  function CreateFollow(s: Store, actor: Actor, req: FollowRequest): (r: Result<Created<Follow>, Error>)
    requires Valid(s)
    ensures !Authenticated(s, actor) ==> r == Failure(NotAuthenticated)
    ensures Authenticated(s, actor) ==> r.Success? == PostsSerializers.ValidateFollow(s, actor.name, req).Success?
    ensures Authenticated(s, actor) && r.Failure? ==> r == Failure(PostsSerializers.ValidateFollow(s, actor.name, req).error)
    ensures r.Success? ==>
      var f := r.value.row;
      && actor == User(f.user)
      && req.following == Given(f.following)
      && r.value.store.follows == s.follows[f.id := f]
      && r.value.store.(follows := s.follows, nextId := s.nextId) == s
      && Valid(r.value.store)
    ensures r.Failure? ==> !r.error.IntegrityError?
  {
    if !Authenticated(s, actor) then Failure(NotAuthenticated)
    else
      var following :- PostsSerializers.ValidateFollow(s, actor.name, req);
      InsertFollow(s, actor.name, following)
  }

  /** A follow row can be addressed only by its follower, and only while it
      passes the `search` filter of the list; otherwise it is a 404, as if it
      did not exist. */
  function RetrieveFollow(s: Store, actor: Actor, search: Option<string>, id: Id): (r: Result<Follow, Error>)
    requires Valid(s)
    ensures !Authenticated(s, actor) ==> r == Failure(NotAuthenticated)
    ensures r.Success? <==>
      Authenticated(s, actor) && id in s.follows && s.follows[id].user == actor.name
      && FollowSearchHit(search, s.follows[id])
    ensures r.Success? ==> r.value == s.follows[id]
    ensures Authenticated(s, actor) && r.Failure? ==> r.error == NotFound
  {
    if !Authenticated(s, actor) then Failure(NotAuthenticated)
    else if id in s.follows && s.follows[id].user == actor.name && FollowSearchHit(search, s.follows[id]) then
      Success(s.follows[id])
    else Failure(NotFound)
  }

  function DestroyFollow(s: Store, actor: Actor, search: Option<string>, id: Id): (r: Result<Store, Error>)
    requires Valid(s)
    ensures !Authenticated(s, actor) ==> r == Failure(NotAuthenticated)
    ensures r.Success? <==>
      Authenticated(s, actor) && id in s.follows && s.follows[id].user == actor.name
      && FollowSearchHit(search, s.follows[id])
    ensures Authenticated(s, actor) && r.Failure? ==> r.error == NotFound
    ensures r.Success? ==> r.value.follows == s.follows - {id} && r.value.(follows := s.follows) == s && Valid(r.value)
    ensures r.Failure? ==> !r.error.IntegrityError?
  {
    var f :- RetrieveFollow(s, actor, search, id);
    Success(DeleteFollow(s, id))
  }

  /** A post body that does not send a null image creates the same post in
      both revisions. */
  lemma CreatePostAgreesWithApi(s: Store, actor: Actor, req: PostRequest, now: nat)
    requires Valid(s) && PostsSerializers.ImageAccepted(req.image)
    ensures CreatePost(s, actor, req, now) == ApiViews.CreatePost(s, actor, req, now)
  {
    PostsSerializers.PostValidationsAgree(s, req, false, ApiSerializers.NewPost);
  }

  /** A body sending a null image: the routed API stores a post without an
      image, this revision refuses the body. */
  lemma NullImageDiverges()
    ensures
      var s := Store({"alice"}, map[], map[], map[], map[], 0);
      var req := PostRequest(Given("hello"), Given(None), Absent, Absent, Absent);
      && Valid(s)
      && ApiViews.CreatePost(s, User("alice"), req, 1).Success?
      && ApiViews.CreatePost(s, User("alice"), req, 1).value.row.image == None
      && CreatePost(s, User("alice"), req, 1) == Failure(FieldError("image", Null))
  {
    var s := Store({"alice"}, map[], map[], map[], map[], 0);
    var req := PostRequest(Given("hello"), Given(None), Absent, Absent, Absent);
    var problems := ApiSerializers.TextProblems(req.text, false) + ApiSerializers.GroupProblems(s, req.group)
      + PostsSerializers.ImageProblems(req.image);
    assert problems == map["image" := Null];
  }

  /** Unfollowing right after following, through the follow row just
      created, gives back the store the follow started from, apart from the
      id counter. */
  lemma FollowThenUnfollow(s: Store, actor: Actor, req: FollowRequest)
    requires Valid(s)
    requires CreateFollow(s, actor, req).Success?
    ensures var c := CreateFollow(s, actor, req).value;
      && RetrieveFollow(c.store, actor, None, c.row.id) == Success(c.row)
      && DestroyFollow(c.store, actor, None, c.row.id) == Success(s.(nextId := c.store.nextId))
  {
    var c := CreateFollow(s, actor, req).value;
    assert c.store.follows - {c.row.id} == s.follows;
  }

  /** Both revisions create the same follow rows: on a consistent store a
      follow is created by one exactly when by the other, with the same
      resulting store. */
  lemma CreateFollowAgreesWithApi(s: Store, actor: Actor, req: FollowRequest)
    requires Valid(s)
    ensures CreateFollow(s, actor, req).Success? == ApiViews.CreateFollow(s, actor, req).Success?
    ensures CreateFollow(s, actor, req).Success? ==> CreateFollow(s, actor, req) == ApiViews.CreateFollow(s, actor, req)
  {
    if Authenticated(s, actor) {
      PostsSerializers.FollowValidationsAgree(s, actor.name, req);
    }
  }
}

=== FILE: requests.dfy ===
/** What a request carries into the resource services: the acting identity,
    the HTTP method, and the body fields the client sent. */
module Requests {
  import opened Wrappers
  import opened Models

  /** The identity the authentication layer resolved, or none. */
  datatype Actor = Anonymous | User(name: Username)

  datatype Method = GET | HEAD | OPTIONS | POST | PUT | PATCH | DELETE

  /** A body field: left out of the request, or sent with a value. */
  datatype Field<T> = Absent | Given(value: T)

  /** A post body. `author` and `pubDate` are read-only: a client may send
      them, and the services must ignore them. */
  datatype PostRequest = PostRequest(
    text: Field<string>,
    image: Field<Option<string>>,
    group: Field<Option<Id>>,
    author: Field<Username>,
    pubDate: Field<nat>)

  /** A comment body; only `text` is writable. */
  datatype CommentRequest = CommentRequest(
    text: Field<string>,
    author: Field<Username>,
    post: Field<Id>,
    created: Field<nat>)

  /** A follow body; only `following` (a username) is writable. */
  datatype FollowRequest = FollowRequest(following: Field<Username>, user: Field<Username>)

  /** An authenticated request comes from a user the store knows. */
  predicate Authenticated(s: Store, actor: Actor) {
    actor.User? && actor.name in s.users
  }

  /** The method that an update uses: PATCH for a partial one, PUT otherwise. */
  function UpdateMethod(partial: bool): Method {
    if partial then PATCH else PUT
  }
}

=== FILE: wrappers.dfy ===
/** Failure-compatible wrappers: `Option` for nullable columns and optional
    query parameters, `Result` for operations that can be refused. */
module Wrappers {

  datatype Option<+T> = None | Some(value: T)

  /** Either the value an operation produced or the error it was refused with.
      Usable with `:-`, so a failed step ends the whole operation. */
  datatype Result<+T, +E> = Success(value: T) | Failure(error: E) {

    predicate IsFailure() {
      Failure?
    }

    function PropagateFailure<U>(): Result<U, E>
      requires Failure?
    {
      Failure(error)
    }

    function Extract(): T
      requires Success?
    {
      value
    }
  }
}
